=== FILE: README.md ===
# CS Music Room: a Dafny model of the chat and file-share protocol core

The program is a small client/server chat and file-sharing system in Java. Clients log in,
chat, upload files to the server and download them again. Every message is a `Message`
record (a type code, a sender, a content string and a file length) serialised by Gson and
sent as one newline-terminated frame. Uploads and downloads send the frame, then the raw
file bytes with no framing.

This project models the sequential core of that protocol:

- `wrappers.dfy`, module `Wrappers`: the `Option` type, where `None` stands for Java's
  `null`, and `Distinct`, a list in which no element occurs twice.
- `shared.dfy`, module `Shared`: the `Message` record, the seven type codes, the three
  constructors, Java's string conversion of `null`, and the `(int)` cast of a `long`.
  Gson is a `Codec` value holding two functions. `fromJson` returns `None` where Gson
  throws or returns `null`.
- `wire.dfy`, module `Wire`: the byte-level framing.
  - `writeBytes` keeps the low byte of each char.
  - The frame reader takes bytes up to the first `'\n'`.
  - `NextFrame` is the reader as a function, with its round-trip lemma.
  - The class `InputStream` stands for a `DataInputStream`: a byte sequence with a cursor.
    Its partial `read` may return any count from 1 to the requested length.
- `filestore.dfy`, module `FileStore`: a directory as the program sees it through
  `java.io.File`. It is a listing of files and sub-directories. It supports lookup, the
  `isFile()` names, and `saveUploadedFile` (create or truncate).
- `server.dfy`, module `ServerMain`: the parts of class `Server`.
  - The credential table and `authenticate`.
  - The registry `clients`, a sequence of connection ids without repeats.
  - The accept loop.
  - One outbox per connection, holding the bytes that connection has been sent so far.
    `Deliver` (one frame to one connection) and `Fanout` (one frame to each of several
    connections, optionally skipping one) describe how outboxes grow.
- `handler.dfy`, module `Handler`: class `ClientHandler`, the server side of one
  connection. It covers the `run` loop and its `switch`, `handleLogin`, `broadcast`, both
  file-list methods, `receiveFile`, `sendFile`/`sendFileFromPath`, and the teardown that
  the LOGOUT case and the `finally` block share.
- `client.dfy`, module `ClientMain`: class `Client`, the controller.
  - The four pending-request slots and their setters.
  - The login loop, the chat loop, the upload menu, and the download steps.
  - The parsing of the file-list text (`split(",")`) and the menu bounds checks.
  - `readFileToByteArray`.
  - Bytes the client writes go to its `sent` sequence.
- `receiver.dfy`, module `Receiver`: class `ClientReceiver`, the client's reading thread.
  It routes each message to a slot or to the console. The console is the `shown` log.
- `protocol.dfy`, module `Protocol`: properties that connect the two ends. The client reads
  back the file-list text the server writes, and the upload layout can be split back into
  metadata and bytes.

Inputs the program reads from outside become parameters:

| Outside input | Parameter in the model |
|---|---|
| The socket's input | the `InputStream` data |
| The console lines | `LoginLoop`'s attempts, `EnterChat`'s lines, the numbers given to `UploadFile` and `ChooseDownload` |
| The receiver's answers to the login requests | `LoginLoop`'s `replies` |
| Whether each accepted connection's handler was set up | `AcceptLoop`'s `setupSucceeds` |

Some behaviours of the code are easy to miss when reading it. The model keeps each one:

- The leave notice goes out twice on LOGOUT. The LOGOUT case
  (src/main/java/Server/ClientHandler.java:68-74) removes the handler, broadcasts
  "<user> left the chat." and closes the socket. Its `return` then runs the `finally` block
  (:79-85), which removes the handler and broadcasts the same notice again. So every other
  registered handler receives it twice (`Handler.ClientHandler.Run`, `LogoutAnnouncesTwice`).
- Frames are one byte per char. `sendMessage` (:30-33) writes with `writeBytes`, which keeps
  only the low eight bits of each char. The reader (:39-46) turns each byte back into one
  char. So text comes back unchanged only if it has no `'\n'` and every char is below 256
  (`FrameRoundTrip`, `WideCharSplitsFrame`).
- A payload comes up short only at the end of the stream. `receiveFile` (:136-153) reads
  until it has `fileLength` bytes or `read` returns -1. A short payload is only logged,
  not saved or announced. The `run` loop then reads its next frame at the end of the stream
  and stops (:41-46), so the connection ends there. On the client, `receiveFileData`
  (src/main/java/Client/ClientReceiver.java:62-77) sets the data slot to `null`, and the
  receiving loop then stops at the end of its stream too (`Handler.ClientHandler.Run` and
  `Receiver.ClientReceiver.Run` stop with the stream exhausted).
- The server's not-found reply is "File not found: <name>" (ClientHandler.java:114). The
  receiver tests only for the prefix "File not found" (ClientReceiver.java:40). So the
  metadata of a file whose name starts with that text is taken for the notice, and its
  bytes are left on the stream (`NotFoundRecognised`).
- The `switch` in `run` (ClientHandler.java:52-75) serves every message type whatever
  `username` holds. Before any login, a connection can list, upload and download files.
  It can also chat: a CHAT is broadcast as "<sender>: <content>" under the `sender` the
  message itself carries. A LOGOUT unregisters the handler and stops the loop; with
  `username` still null, no leave notice goes out.

## Model

| member | source | states |
|---|---|---|
| Shared.TypeCodesAreDistinct | src/main/java/Shared/Message.java:5-11 | The seven type codes LOGIN..LOGOUT are exactly 0..6, so no two are equal. |
| Shared.EmptyMessage | src/main/java/Shared/Message.java:13-18 | The no-argument constructor has type 0, which is LOGIN, length 0, and null sender and content. |
| Shared.NewMessage | src/main/java/Shared/Message.java:20-24 | The three-argument constructor sets type, sender and content and leaves the length at 0. |
| Shared.NewMessageWithLength | src/main/java/Shared/Message.java:26-31 | The four-argument constructor sets all four fields. With length 0 it equals the three-argument one. |
| Shared.Text | src/main/java/Server/ClientHandler.java:57 | String concatenation turns a null String into "null" and keeps any other String as it is. |
| Shared.ToInt32 | src/main/java/Server/ClientHandler.java:63 | `(int)` of a long is in the int range, equals the long modulo 2^32, and is the identity on int values. |
| Wire.WriteBytes | src/main/java/Server/ClientHandler.java:31 | `writeBytes` writes one byte per char. |
| Wire.WriteBytesAt | src/main/java/Server/ClientHandler.java:31 | Each byte `writeBytes` writes is the low eight bits of its char. |
| Wire.WriteBytesAppend | src/main/java/Server/ClientHandler.java:31 | Writing `a + b` writes the bytes of `a`, then the bytes of `b`. |
| Wire.Frame | src/main/java/Server/ClientHandler.java:30-33 | `sendMessage` writes the text's bytes followed by exactly one '\n' byte, which is the last byte. |
| Wire.Chars | src/main/java/Server/ClientHandler.java:42-44 | The reader turns each byte into the char of the same code. |
| Wire.NextFrame | src/main/java/Server/ClientHandler.java:39-46 | The frame is the bytes before the first '\n', without it. The '\n' is consumed. With no '\n' before EOF there is no frame. |
| Wire.NextFrameAt | src/main/java/Server/ClientHandler.java:41-45 | If the first '\n' is at position j, the frame is the chars of bytes 0..j-1 and j+1 bytes are consumed. |
| Wire.FrameRoundTrip | src/main/java/Server/ClientHandler.java:30-48 | For text with no '\n' and every char below 256, reading what `sendMessage` wrote gives back exactly that text and consumes the frame, whatever follows it. |
| Wire.WideCharSplitsFrame | src/main/java/Server/ClientHandler.java:31-43 | A char whose low byte is 10 (U+010A) is written as '\n', so the reader ends the frame at it. |
| Wire.InputStream.ReadByte | src/main/java/Server/ClientHandler.java:41 | `read()` returns the next byte and advances by one, or returns -1 at EOF and stays put. |
| Wire.InputStream.Read | src/main/java/Server/ClientHandler.java:140 | `read(buf, off, len)` returns 0 for len 0 and -1 at EOF. Otherwise it copies some 1..len available bytes into `buf` at `off`, changes nothing else in `buf`, and advances by that count. |
| Wire.InputStream.ReadFrame | src/main/java/Server/ClientHandler.java:39-46 | The byte loop with its StringBuilder returns what `NextFrame` says of the unread bytes and advances past the '\n'. At EOF it returns nothing and the stream is exhausted. |
| Wire.InputStream.ReadPayload | src/main/java/Server/ClientHandler.java:137-143 | The partial-read loop reads min(length, available) bytes into a fresh array of `length` bytes. Those bytes are the next ones of the stream, and the cursor advances by that count. |
| Wire.InputStream.Close | src/main/java/Client/ClientReceiver.java:53-55 | Closing marks the stream closed. |
| FileStore.Find | src/main/java/Server/ClientHandler.java:94-96 | `new File(dir, name).exists()`: an entry is found only if it is listed under that name. It is absent exactly when no entry has that name. |
| FileStore.FileNames | src/main/java/Server/ClientHandler.java:179-187 | The `isFile()` pass collects a name exactly when some file entry has it, and collects no more names than there are entries. |
| FileStore.FileNamesDistinct | src/main/java/Server/ClientHandler.java:179-187 | A directory without repeated names gives an `isFile()` pass without repeats. |
| FileStore.FileNamesFind | src/main/java/Server/ClientHandler.java:179-187 | In a directory without repeated names, the `isFile()` pass collects a name exactly when looking it up finds a file. |
| FileStore.Save | src/main/java/Server/ClientHandler.java:155-171 | `saveUploadedFile` fails exactly when the name denotes a directory: a sub-directory, or "", "." or "..", which `new File(dir, name)` resolves to the directory itself or its parent. Otherwise the name then holds a file with exactly the data, every other name looks up as before, and unique names stay unique. A missing directory is created. |
| ServerMain.Authenticate | src/main/java/Server/Server.java:58-65 | `authenticate` is true if and only if one single table entry matches both the username and the password. A null argument matches nothing. |
| ServerMain.AuthenticateUsers | src/main/java/Server/Server.java:10-16 | Against the real table, exactly user1..user5 with password "1234" are accepted, so `authenticate("user1", "1234")` is true. |
| ServerMain.WrongCredentialsRefused | src/main/java/Server/Server.java:58-65 | A wrong password, or a username not in the table, is refused. |
| ServerMain.Remove | src/main/java/Server/ClientHandler.java:69 | `allClients.remove(this)` drops one occurrence when present, keeps every other handler, adds none, and changes nothing when absent. |
| ServerMain.RemoveMultiset | src/main/java/Server/ClientHandler.java:69 | `allClients.remove(this)` takes away one occurrence of the handler and changes the count of no other handler. |
| ServerMain.RemoveDistinct | src/main/java/Server/ClientHandler.java:69 | After removal from a registry without repeats, the handler is gone and there are still no repeats. |
| ServerMain.AppendTwice | src/main/java/Server/ClientHandler.java:127-130 | Two writes in a row add the two chunks in order. |
| ServerMain.DeliverReaches | src/main/java/Server/ClientHandler.java:30-33 | A `sendMessage` on one connection adds the frame to that connection only. |
| ServerMain.Fanout | src/main/java/Server/ClientHandler.java:259-262 | A fan-out leaves every connection that is not a target, or is the skipped one, unchanged. |
| ServerMain.FanoutReaches | src/main/java/Server/ClientHandler.java:270-276 | Over a registry without repeats, a fan-out gives each target except the skipped one exactly one more frame and changes no other connection. |
| ServerMain.Server.constructor | src/main/java/Server/Server.java:18 | The server starts with an empty registry, no outbox and the two given directories. |
| ServerMain.Server.SendMessage | src/main/java/Server/ClientHandler.java:30-33 | Sending to a connection is one `Deliver` of the frame to that connection. |
| ServerMain.Server.Write | src/main/java/Server/ClientHandler.java:128 | `out.write` appends the raw bytes to that connection with no framing. |
| ServerMain.Server.AcceptLoop | src/main/java/Server/Server.java:26-43 | Each accepted connection whose handler is set up is appended to the registry under a fresh, consecutive id. The registry stays free of repeats. The first failed setup ends the loop, so exactly the leading successes are registered. |
| ServerMain.LeadingSuccessesAt | src/main/java/Server/Server.java:26-43 | The accept loop's stopping index is the number of leading successful setups. |
| Handler.JoinHasComma | src/main/java/Server/ClientHandler.java:215 | Joining two or more names puts a ',' in the text. |
| Handler.ListText | src/main/java/Server/ClientHandler.java:256 | The list text is "NO_FILES" if and only if no names were collected, or the only name is "NO_FILES". |
| Handler.AddMissing | src/main/java/Server/ClientHandler.java:241-250 | The classpath pass keeps the first pass's names as a prefix, in order, and adds at most one name per entry. |
| Handler.AddMissingNames | src/main/java/Server/ClientHandler.java:241-250 | A name is in the result if and only if the first pass found it or the classpath listing has a file of that name. |
| Handler.AddMissingKeepsDistinct | src/main/java/Server/ClientHandler.java:246-248 | A name is added only if absent, so a first pass with no repeats gives a list with no repeats. |
| Handler.ListedNamesAgree | src/main/java/Server/ClientHandler.java:227-250 | Two server directories whose first passes agree on a name give lists that agree on it. |
| Handler.SaveKeepsFileNames | src/main/java/Server/ClientHandler.java:155-171 | After a save, the first pass finds any other name exactly when it found it before. |
| Handler.UploadListedOnce | src/main/java/Server/ClientHandler.java:145-149 | The list sent after an upload holds the uploaded name exactly once and has no repeats. Every other name is listed exactly when it was listed before the upload. |
| Handler.ClientHandler.constructor | src/main/java/Server/ClientHandler.java:19-28 | A new handler serves the given connection and input over the shared registry, with no username and an open socket. |
| Handler.ClientHandler.Broadcast | src/main/java/Server/ClientHandler.java:266-277 | `broadcast` sends one CHAT frame from "Server" to every registered handler except `this`. `this` and unregistered connections get nothing, and the registry does not change. |
| Handler.ClientHandler.HandleLogin | src/main/java/Server/ClientHandler.java:279-290 | The reply is "success" or "failure" as `authenticate` decides. Only on success is `username` set and "<user> joined the chat!" sent to the others. |
| Handler.ClientHandler.CollectFileNames | src/main/java/Server/ClientHandler.java:174-214 | The two directory loops collect exactly the listed names: the server directory's files, then the classpath files not already present. |
| Handler.ClientHandler.SendFileList | src/main/java/Server/ClientHandler.java:173-220 | `sendFileList` sends one FILE_LIST frame with the list text to this connection only. |
| Handler.ClientHandler.SendFileListToAllClients | src/main/java/Server/ClientHandler.java:222-264 | `sendFileListToAllClients` sends the list frame to every registered handler, this one included. |
| Handler.ClientHandler.ReceiveFile | src/main/java/Server/ClientHandler.java:136-153 | A negative length raises. Otherwise min(length, available) bytes are read. Only a complete payload is saved, announced and followed by the new list. An incomplete one changes no directory and sends nothing. |
| Handler.ClientHandler.StoreUpload | src/main/java/Server/ClientHandler.java:145-171 | A complete upload is saved under the name. Then "<user> uploaded file <name>" goes to the others and the new list goes to everyone. A null name or a name that denotes a directory ("", ".", ".." or a sub-directory) raises and sends nothing. |
| Handler.ClientHandler.SendFileFromPath | src/main/java/Server/ClientHandler.java:118-134 | A file gets its metadata frame (name and length), then exactly its bytes. A sub-directory gets the metadata frame and then raises. |
| Handler.ClientHandler.SendToAll | src/main/java/Server/ClientHandler.java:259-263 | The loop sends the list frame to every registered handler, in registry order. |
| Handler.ClientHandler.CopyFile | src/main/java/Server/ClientHandler.java:123-133 | The 4096-byte copy loop writes exactly the file's bytes, in order, to this connection. |
| Handler.ClientHandler.SendFile | src/main/java/Server/ClientHandler.java:92-116 | The server directory is tried first, then the classpath copy, then the "File not found: <name>" reply with no payload. A null name fails with nothing sent. |
| Handler.ClientHandler.SendFromClasspath | src/main/java/Server/ClientHandler.java:102-115 | A classpath file gets its metadata and bytes. A classpath sub-directory gets its metadata, then the not-found reply. A missing name gets only the not-found reply. |
| Handler.ClientHandler.Teardown | src/main/java/Server/ClientHandler.java:68-85 | The handler leaves the registry, a logged-in user's departure goes to the others, and the socket is closed. |
| Handler.ClientHandler.Dispatch | src/main/java/Server/ClientHandler.java:52-75 | Per type, the new outbox is stated. LOGIN sends the reply, and on success `username` is set and the join notice goes to the others. CHAT broadcasts "<sender>: <content>" to the others. FILE_LIST sends the list to this connection. FILE_UPLOAD reads min(`(int) fileLength`, available) bytes; a complete payload is saved, announced and followed by the list to everyone; a negative length fails with no byte read, nothing sent and no directory changed; a short payload (the stream ended) leaves the directory and sends nothing; a null name or a name that denotes a directory fails with nothing sent. FILE_DOWNLOAD sends the file from the server directory, else from the classpath copy, else the not-found reply. LOGOUT unregisters the handler, sends a logged-in user's leave notice to the others, closes the socket and stops; no other type closes the socket. Any other type, LOGIN_RESPONSE included, matches no case: it sends nothing and the loop goes on. |
| Handler.ClientHandler.ServeFrame | src/main/java/Server/ClientHandler.java:39-75 | One pass of the loop. EOF before a whole frame (the `break`) consumes the rest of the stream and changes nothing else. Otherwise at least the whole frame is consumed, `decoded` is what Gson makes of it, and a decoded message has the outcome `Dispatch` gives it: the LOGIN reply and `username`, the CHAT broadcast, the FILE_LIST reply, and nothing for an unknown type. Only an upload reads past the frame or changes the directory. A frame that decodes to LOGOUT stops the loop with that handler unregistered and its leave notice sent, and a stop comes only from such a frame. A failure comes only from a frame Gson cannot decode, or from an upload or download, and the stream then stops right after that frame or, for an upload, after its payload. Other messages keep the registry. |
| Handler.ClientHandler.ServeFrames | src/main/java/Server/ClientHandler.java:38-76 | The loop ends on EOF with the stream exhausted, on LOGOUT, or on a failure. EOF before any frame changes nothing. A first frame that is a LOGOUT stops at once. A stop is caused by a LOGOUT frame, the last one read, starting at `logoutAt`. The outbox then holds the LOGOUT case's leave notice on top of `beforeLogout`. A failure is caused by the last frame read, starting at `failedAt`: Gson could not decode it, or it was an upload or a download. |
| Handler.ClientHandler.Run | src/main/java/Server/ClientHandler.java:36-90 | However `run` ends (EOF, LOGOUT, an undecodable frame, or a failed upload or download), the handler is no longer registered and its socket is closed. It ended on LOGOUT (`beforeLogout`) or failed on the frame at `failedAt` (never both), or else the stream is exhausted. The frame at `failedAt` is the last one read, and it is undecodable, an upload or a download. If the stream ends before any frame, nothing is dispatched: the stream is exhausted, `username` is unchanged and the outbox differs only by the `finally` block's leave notice. When it ends on LOGOUT, that frame is the last one read (`logoutAt` is where it starts), and the final outbox is the LOGOUT case's leave notice followed by the `finally` block's. If the first frame is a LOGOUT, `beforeLogout` is the outbox at the start. For a logged-in user, every other handler registered at the start gets exactly two copies of the notice and no other connection gets anything. |
| Handler.LogoutAnnouncesTwice | src/main/java/Server/ClientHandler.java:68-84 | The outbox `Run` ends with after LOGOUT gives every other registered handler the leave notice twice. The leaving one and unregistered connections get nothing. |
| ClientMain.Split | src/main/java/Client/Client.java:205 | `split(",")` turns "" into [""]. Any other text gives comma-free pieces whose last piece is not empty. |
| ClientMain.ParseFileList | src/main/java/Client/Client.java:199-205 | "NO_FILES" and "" mean nothing is downloadable. Any other text is split on ",". |
| ClientMain.PickIndex | src/main/java/Client/Client.java:212-214 | A menu number n is accepted if and only if 1 <= n <= count. It picks index n - 1. |
| ClientMain.ReadFileToByteArray | src/main/java/Client/Client.java:178-188 | The chunks read until EOF, concatenated in order, are exactly the file's content. |
| ClientMain.Client.constructor | src/main/java/Client/Client.java:12-18 | The controller starts with every slot and the username null, nothing sent and the socket open. |
| ClientMain.Client.SetFileList | src/main/java/Client/Client.java:253-255 | The setter stores its argument in the fileList slot. |
| ClientMain.Client.SetLoginResponse | src/main/java/Client/Client.java:257-259 | The setter stores its argument in the loginResponse slot. |
| ClientMain.Client.SetMetadata | src/main/java/Client/Client.java:261-263 | The setter stores its argument in the metadata slot. |
| ClientMain.Client.SetDownloadedFileData | src/main/java/Client/Client.java:265-267 | The setter stores its argument in the downloadedFileData slot. |
| ClientMain.Client.SendFrame | src/main/java/Client/Client.java:88-89 | Every outbound message is its JSON text followed by exactly one '\n'. |
| ClientMain.Client.SendLoginRequest | src/main/java/Client/Client.java:85-90 | The login request is one LOGIN frame with the username and password. |
| ClientMain.Client.LoginAttempt | src/main/java/Client/Client.java:34-52 | One pass of the login loop: `username` becomes the attempt's name, one LOGIN frame with that name and password is sent, the attempt succeeds exactly when the reply is "success", and the loginResponse slot is null again afterwards. |
| ClientMain.Client.LoginLoop | src/main/java/Client/Client.java:32-53 | The loop logs in if and only if some reply is "success", and stops at the first one. `username` is that attempt's name; without a login it is the last attempt's name, or unchanged when there was none. One LOGIN frame is sent per attempt made, and the loginResponse slot, null when the loop starts, is null again afterwards. |
| ClientMain.Client.EnterChat | src/main/java/Client/Client.java:92-115 | Each line before the first "/exit" (any ASCII case) goes out as a CHAT. "/exit" sends one LOGOUT and closes the socket. Nothing is sent for lines after it. |
| ClientMain.Client.SendChatLines | src/main/java/Client/Client.java:96-101 | The chat loop sends the lines before the first "/exit", in order, and stops at it. |
| ClientMain.Client.UploadFile | src/main/java/Client/Client.java:124-176 | A missing directory, an empty directory, a non-number or an out-of-bounds number sends nothing. A valid file choice sends the FILE_UPLOAD frame with username, name and length, then exactly the file's bytes. |
| ClientMain.Client.RequestFileList | src/main/java/Client/Client.java:190-194 | A download starts with one FILE_LIST request frame. |
| ClientMain.Client.ChooseDownload | src/main/java/Client/Client.java:199-223 | "NO_FILES", "" or an out-of-bounds number clears the fileList slot and requests nothing. Otherwise the chosen name is requested in one FILE_DOWNLOAD frame. |
| ClientMain.Client.FinishDownload | src/main/java/Client/Client.java:229-251 | The bytes are saved under the chosen name and a FILE_LIST refresh is sent. Then the fileList, metadata and downloadedFileData slots are all null. A failed save leaves every slot and sends nothing. |
| Receiver.NotFoundRecognised | src/main/java/Client/ClientReceiver.java:40 | The server's "File not found: <name>" reply passes the prefix test. So does any content that starts with "File not found", such as the metadata of a file named that way. |
| Receiver.ClientReceiver.constructor | src/main/java/Client/ClientReceiver.java:12-14 | The receiver reads the given socket input and has printed nothing yet. |
| Receiver.ClientReceiver.ReceiveFileData | src/main/java/Client/ClientReceiver.java:62-77 | min(length, available) bytes are read. The data slot gets exactly the payload when it is complete, and null otherwise. |
| Receiver.ClientReceiver.Dispatch | src/main/java/Client/ClientReceiver.java:33-49 | CHAT content is printed. FILE_LIST and LOGIN_RESPONSE content go to their slots. A not-found FILE_DOWNLOAD is printed and reads no payload. Any other FILE_DOWNLOAD is stored as metadata before `(int) fileLength` payload bytes are read. LOGOUT stops. Other types change nothing. A null content or a negative length raises. |
| Receiver.ClientReceiver.ReceiveFrame | src/main/java/Client/ClientReceiver.java:20-49 | One pass of the loop. EOF before a whole frame (the `break`) consumes the rest of the stream and changes nothing else. Otherwise at least the whole frame is consumed and `decoded` is what Gson makes of it. A CHAT shows its content, a FILE_LIST or LOGIN_RESPONSE fills its slot, and only a CHAT or FILE_DOWNLOAD shows anything or reads past the frame. A frame that decodes to LOGOUT stops right after it with nothing shown and no slot changed, and a stop comes only from such a frame. The pass fails exactly when the frame cannot be decoded, or is a FILE_DOWNLOAD with null content, or with a negative length and content other than the not-found notice; reading then stops right after the frame. |
| Receiver.ClientReceiver.ReceiveFrames | src/main/java/Client/ClientReceiver.java:19-50 | The loop ends on EOF with the stream exhausted, on LOGOUT, or on an error. EOF before any frame shows nothing and changes no slot. A first frame that is a LOGOUT stops right after it with nothing changed. A stop is always a LOGOUT frame, the last one read, starting at `logoutAt`. An error is always the last frame read, starting at `failedAt`: one Gson cannot decode, or a FILE_DOWNLOAD with null content or with a negative length that is not the not-found notice. |
| Receiver.ClientReceiver.Run | src/main/java/Client/ClientReceiver.java:17-60 | The input stream is closed on every exit path. If the loop ends with no LOGOUT and no error, the stream is exhausted. If the stream ends before any frame, nothing is shown and no slot changes. A stop is always a LOGOUT frame, the last one read (`logoutAt` is where it starts); if the first frame is a LOGOUT, the loop stops right after it with nothing shown and no slot changed. An error is always the last frame read (`failedAt` is where it starts), and it is undecodable or a FILE_DOWNLOAD with null content or with a negative length that is not the not-found notice. |
| Protocol.PiecesJoin | src/main/java/Client/Client.java:205 | Splitting the comma-joined names gives back every name, empty ones included, as long as no name holds a ','. |
| Protocol.FileListRoundTrip | src/main/java/Client/Client.java:199-205 | Take comma-free names whose last one is non-empty. The client's menu then shows exactly the names the server listed, except that an empty list and the single name "NO_FILES" both read as "no files". |
| Protocol.TrailingEmptyNameIsLost | src/main/java/Client/Client.java:205 | `split` drops trailing empty strings, so a list ending in an empty name reads back one shorter. |
| Protocol.UploadIsSeparable | src/main/java/Client/Client.java:166-172 | Take the upload bytes: the metadata frame, then the file. Reading one frame gives back the metadata text, and the next bytes are exactly the file. |

## Left out

- Sockets, threads and `synchronized (allClients)` are left out. Handlers and the receiver
  run one step at a time against shared sequential state. Interleavings of concurrent
  handlers are not modelled.
- The `Thread.sleep` busy-wait loops in `Client.main` and `requestDownload` are not
  modelled as loops. The model takes the point where the slot has been filled:
  `LoginLoop`'s `replies` and the preconditions of `ChooseDownload` and `FinishDownload`.
  A reply that never arrives, which hangs the Java client, is not modelled.
- Gson is a `Codec` parameter with arbitrary functions. No property of JSON text is
  claimed, so the frame round-trip is stated for any text with no '\n' and chars below 256.
- The file system and class loader are left out. A directory is a listing of entries, a
  sub-directory's `length()` is the number the platform reports, and names are compared as
  strings. The names "", "." and ".." denote a directory, so saving under them fails
  (`Save`), but other path syntax (a name containing "/") is not modelled. The server's two
  directories are independent listings: the classpath copy, which uploads do not change,
  and `src/main/resources/Server/Files`.
- Handler.ClientHandler.SendFile: in Java a download named "", "." or ".." finds the server
  directory (or its parent) itself. `exists()` holds, so metadata with that directory's
  `getName()` ("Files" for "", the name itself otherwise) and its `length()` goes out. Then
  `FileInputStream` throws and the connection is torn down. The model looks these names up
  in the listing like any other name, so it sends "File not found: <name>" instead.
- Console I/O is modelled only where the protocol shows it: the receiver's printed CHAT
  lines and not-found notices (`shown`). Menus, prompts, progress lines, `printMenu` and
  `main`'s menu loop are left out.
- Output write failures (`IOException` from `out.writeBytes`, `flush`, or `socket.close`)
  are not modelled. Every write succeeds. The exception raised in a `finally` block is not
  modelled either.
- Wire.WriteBytes: a char here is a Unicode scalar value, while a Java `char` is a UTF-16
  unit. Text is taken to lie in the Basic Multilingual Plane. For a character above U+FFFF,
  Java's `writeBytes` writes two bytes, the low bytes of its two surrogates. The model
  writes one byte, the low byte of the code point.
- Message.fileLength: a Java `long` is an unbounded integer here. Values come from
  `File.length()` or Gson.
- ClientMain.Client.EnterChat: `equalsIgnoreCase` is modelled for ASCII letters only. When
  the console input ends before "/exit", the model stops and leaves the socket open, where
  Java's `Scanner` would throw.
- ClientMain.Client.LoginLoop: the attempts are the console lines, read two at a time. When
  they run out without a "success" (`loggedIn` false, every attempt made), Java's
  `Scanner.nextLine` throws and `main` ends (Client.java:35-37). The model returns instead,
  and it does not model the console ending between a username and its password.
- ClientMain.Client.ChooseDownload: a menu entry that is not a number makes Java's unguarded
  `Integer.parseInt` throw and end `main`. The model takes the number as given.
- ClientMain.Client.UploadFile: the menu number arrives already parsed (`None` for a
  `NumberFormatException`). Choosing a sub-directory is `ReadFailed`: the exception that
  leaves `main` is not followed further.
- ClientMain.Client.FinishDownload: the rethrown `IOException` that ends `main` is
  reported as `saved` false. `mkdirs` is part of `Save`.
- Receiver.ClientReceiver.ReceiveFileData: the file name parameter only feeds a console
  line, so it is dropped.
- `Shared/User.java` (the `User` class with its getters) is not part of this model. The
  table entries are the `User` datatype.

=== FILE: client.dfy ===
/**
 * The client controller (class Client): the pending-request slots the receiver
 * fills and the controller consumes and clears, the login loop, chat, upload and
 * the download steps, and the parsing of the file-list text.
 */
module ClientMain {
  import opened Wrappers
  import opened Shared
  import opened Wire
  import opened FileStore

  datatype Credentials = Credentials(username: string, password: string)

  /** The comma-separated pieces of a string, empty ones included. */
  function Pieces(s: string): (r: seq<string>)
    ensures |r| >= 1
    ensures forall i :: 0 <= i < |r| ==> ',' !in r[i]
  {
    if s == [] then [""]
    else
      var rest := Pieces(s[1..]);
      if s[0] == ',' then [""] + rest else [[s[0]] + rest[0]] + rest[1..]
  }

  /** `split` drops the empty strings at the end of its result. */
  function DropTrailingEmpty(p: seq<string>): (r: seq<string>)
    ensures r <= p
    ensures r == [] || r[|r| - 1] != ""
    ensures forall i :: |r| <= i < |p| ==> p[i] == ""
  {
    if p == [] then []
    else if p[|p| - 1] == "" then DropTrailingEmpty(p[..|p| - 1])
    else p
  }

  /**
   * `s.split(",")`: the empty string splits to itself; any other text splits into
   * comma-free pieces, with the empty pieces at the end dropped.
   */
  function Split(s: string): (r: seq<string>)
    ensures s == "" ==> r == [""]
    ensures s != "" ==> r == [] || r[|r| - 1] != ""
    ensures forall i :: 0 <= i < |r| ==> ',' !in r[i]
  {
    if s == "" then [""] else DropTrailingEmpty(Pieces(s))
  }

  /**
   * The download menu's reading of the list text: "NO_FILES" or "" mean nothing
   * is downloadable (None); otherwise the names split on ",".
   */
  function ParseFileList(text: string): (r: Option<seq<string>>)
    ensures r.None? <==> text == "NO_FILES" || text == ""
  {
    if text == "NO_FILES" || text == "" then None else Some(Split(text))
  }

  /**
   * The bounds check on a menu number: number n picks index n - 1, accepted only
   * when that index is in 0..count-1.
   */
  function PickIndex(number: int, count: nat): (r: Option<nat>)
    ensures r.Some? <==> 1 <= number <= count
    ensures r.Some? ==> r.value == number - 1 && r.value < count
  {
    if number - 1 < 0 || number - 1 >= count then None else Some(number - 1)
  }

  /** The login request for one attempt. */
  function LoginRequest(codec: Codec, attempt: Credentials): string
  {
    codec.toJson(NewMessage(Login, Some(attempt.username), Some(attempt.password)))
  }

  /** The frames the login loop writes for a run of attempts, in order. */
  function LoginFrames(codec: Codec, attempts: seq<Credentials>): seq<byte>
  {
    if attempts == [] then []
    else LoginFrames(codec, attempts[..|attempts| - 1]) + Frame(LoginRequest(codec, attempts[|attempts| - 1]))
  }

  /** One more attempt adds its request frame after those already written. */
  lemma LoginFramesStep(codec: Codec, start: seq<byte>, attempts: seq<Credentials>, n: nat)
    requires n < |attempts|
    ensures start + LoginFrames(codec, attempts[..n + 1]) ==
      start + LoginFrames(codec, attempts[..n]) + Frame(LoginRequest(codec, attempts[n]))
  {
    assert attempts[..n + 1][..n] == attempts[..n];
  }

  /** The chat window's "/exit", compared ignoring ASCII case. */
  predicate IsExit(line: string)
  {
    AsciiLowered(line) == "/exit"
  }

  function AsciiLowered(s: string): (r: string)
    ensures |r| == |s|
  {
    seq(|s|, i requires 0 <= i < |s| => AsciiLower(s[i]))
  }

  function AsciiLower(c: char): char
  {
    if 'A' <= c <= 'Z' then (c as int + 32) as char else c
  }

  /** The chat messages of a run of lines, in order. */
  function ChatFrames(codec: Codec, user: Option<string>, lines: seq<string>): seq<byte>
  {
    if lines == [] then []
    else ChatFrames(codec, user, lines[..|lines| - 1]) +
         Frame(codec.toJson(NewMessage(Chat, user, Some(lines[|lines| - 1]))))
  }

  /** One more chat line adds its frame after those already written. */
  lemma ChatFramesStep(codec: Codec, user: Option<string>, start: seq<byte>, lines: seq<string>, n: nat)
    requires n < |lines|
    ensures start + ChatFrames(codec, user, lines[..n + 1]) ==
      start + ChatFrames(codec, user, lines[..n]) + Frame(codec.toJson(NewMessage(Chat, user, Some(lines[n]))))
  {
    assert lines[..n + 1][..n] == lines[..n];
  }

  /** The FILE_LIST request (the first step of a download, and the refresh after one). */
  function FileListRequest(codec: Codec, user: Option<string>): string
  {
    codec.toJson(NewMessage(FileList, user, Some("")))
  }

  /** The upload metadata: FILE_UPLOAD with the user, the file name and its length. */
  function UploadMetadata(codec: Codec, user: Option<string>, name: string, length: int): string
  {
    codec.toJson(NewMessageWithLength(FileUpload, user, Some(name), length))
  }

  /** How `uploadFile` ends. `ReadFailed`: the chosen entry is a directory and the exception leaves the menu. */
  datatype UploadOutcome = NoDirectory | NoFiles | NotANumber | InvalidChoice | ReadFailed | Uploaded(name: string)

  /**
   * `readFileToByteArray`: reads of up to 4096 bytes, each chunk appended in order,
   * until EOF; the result is the file's content.
   */
  method ReadFileToByteArray(contents: seq<byte>) returns (bytes: seq<byte>)
    ensures bytes == contents
  {
    var fis := new InputStream(contents);
    var buffer := new byte[4096];
    bytes := [];
    while true
      invariant fis.Valid() && fis.data == contents && buffer.Length == 4096
      invariant bytes == contents[..fis.pos]
      decreases |contents| - fis.pos
    {
      var bytesRead := fis.Read(buffer, 0, buffer.Length);
      if bytesRead == -1 {
        break;
      }
      bytes := bytes + buffer[..bytesRead];
    }
    assert contents[..fis.pos] == contents;
  }

  class Client {
    /** Gson. */
    const codec: Codec
    var username: Option<string>
    /** The pending-request slots; None is Java's null ("nothing has arrived"). */
    var loginResponse: Option<string>
    var fileList: Option<string>
    var metadata: Option<Message>
    var downloadedFileData: Option<seq<byte>>
    /** Every byte written to the socket's output stream. */
    var sent: seq<byte>
    /** src/main/resources/Client/<username>, where downloads are saved. */
    var downloadDir: Option<Dir>
    var socketClosed: bool

    constructor (codec: Codec, downloadDir: Option<Dir>)
      ensures this.codec == codec && this.downloadDir == downloadDir
      ensures username == None && loginResponse == None && fileList == None
      ensures metadata == None && downloadedFileData == None
      ensures sent == [] && !socketClosed
    {
      this.codec := codec;
      this.downloadDir := downloadDir;
      username := None;
      loginResponse := None;
      fileList := None;
      metadata := None;
      downloadedFileData := None;
      sent := [];
      socketClosed := false;
    }

    method SetFileList(list: Option<string>)
      modifies this`fileList
      ensures fileList == list
    {
      fileList := list;
    }

    method SetLoginResponse(response: Option<string>)
      modifies this`loginResponse
      ensures loginResponse == response
    {
      loginResponse := response;
    }

    method SetMetadata(message: Option<Message>)
      modifies this`metadata
      ensures metadata == message
    {
      metadata := message;
    }

    method SetDownloadedFileData(data: Option<seq<byte>>)
      modifies this`downloadedFileData
      ensures downloadedFileData == data
    {
      downloadedFileData := data;
    }

    /** `out.writeBytes(json + "\n")`: every outbound message is one frame. */
    method SendFrame(json: string)
      modifies this`sent
      ensures sent == old(sent) + Frame(json)
    {
      sent := sent + Frame(json);
    }

    method SendLoginRequest(user: string, password: string)
      modifies this`sent
      ensures sent == old(sent) + Frame(LoginRequest(codec, Credentials(user, password)))
    {
      SendFrame(codec.toJson(NewMessage(Login, Some(user), Some(password))));
    }

    /**
     * One pass of the login loop: the name is kept in `username`, the request is
     * sent, the receiver's `reply` arrives in the loginResponse slot, and the slot
     * is read and reset to null.
     */
    method LoginAttempt(attempt: Credentials, reply: string) returns (accepted: bool)
      modifies this`username, this`loginResponse, this`sent
      ensures accepted <==> reply == "success"
      ensures username == Some(attempt.username)
      ensures loginResponse == None
      ensures sent == old(sent) + Frame(LoginRequest(codec, attempt))
    {
      username := Some(attempt.username);
      SendLoginRequest(attempt.username, attempt.password);
      SetLoginResponse(Some(reply));
      accepted := loginResponse.value == "success";
      loginResponse := None;
    }

    /**
     * The login loop of `main`, entered while the loginResponse slot still holds its
     * initial null. After the request for attempt i, the receiver stores
     * `replies[i]` in the loginResponse slot; the loop consumes the slot, resets it
     * to null, and repeats until a reply is "success" or the attempts run out.
     */
    method LoginLoop(attempts: seq<Credentials>, replies: seq<string>) returns (loggedIn: bool, tries: nat)
      requires |replies| == |attempts|
      requires loginResponse == None
      modifies this`username, this`loginResponse, this`sent
      ensures loggedIn <==> exists i :: 0 <= i < |replies| && replies[i] == "success"
      ensures tries <= |attempts|
      ensures loggedIn ==>
        1 <= tries && replies[tries - 1] == "success" &&
        (forall i :: 0 <= i < tries - 1 ==> replies[i] != "success") &&
        username == Some(attempts[tries - 1].username)
      ensures !loggedIn ==> tries == |attempts|
      ensures username == if tries == 0 then old(username) else Some(attempts[tries - 1].username)
      ensures loginResponse == None
      ensures sent == old(sent) + LoginFrames(codec, attempts[..tries])
    {
      loggedIn := false;
      tries := 0;
      while tries < |attempts|
        invariant tries <= |attempts|
        invariant loginResponse == None
        invariant tries == 0 ==> username == old(username)
        invariant 0 < tries ==> username == Some(attempts[tries - 1].username)
        invariant forall i :: 0 <= i < tries ==> replies[i] != "success"
        invariant sent == old(sent) + LoginFrames(codec, attempts[..tries])
      {
        var accepted := LoginAttempt(attempts[tries], replies[tries]);
        LoginFramesStep(codec, old(sent), attempts, tries);
        tries := tries + 1;
        if accepted {
          assert replies[tries - 1] == "success";
          loggedIn := true;
          return;
        }
      }
      assert forall i :: 0 <= i < |replies| ==> replies[i] != "success";
    }

    /**
     * `enterChat`: each line is sent as a CHAT until "/exit", which is answered by a
     * LOGOUT and closes the socket. If the input ends first (`exited` false) the
     * lines read so far have been sent and the socket is left open.
     */
    method EnterChat(lines: seq<string>) returns (exited: bool, used: nat)
      modifies this`sent, this`socketClosed
      ensures used <= |lines|
      ensures !exited ==>
        used == |lines| && (forall i :: 0 <= i < |lines| ==> !IsExit(lines[i])) &&
        sent == old(sent) + ChatFrames(codec, username, lines) && socketClosed == old(socketClosed)
      ensures exited ==>
        1 <= used && IsExit(lines[used - 1]) && (forall i :: 0 <= i < used - 1 ==> !IsExit(lines[i])) &&
        sent == old(sent) + ChatFrames(codec, username, lines[..used - 1]) +
          Frame(codec.toJson(NewMessage(Logout, username, Some("")))) &&
        socketClosed
    {
      used := SendChatLines(lines);
      exited := used < |lines|;
      if exited {
        ghost var chatted := lines[..used];
        SendFrame(codec.toJson(NewMessage(Logout, username, Some(""))));
        used := used + 1;
        assert lines[..used - 1] == chatted;
        socketClosed := true;
      } else {
        assert lines[..used] == lines;
      }
    }

    /** The chat loop proper: every line before the first "/exit" goes out as a CHAT. */
    method SendChatLines(lines: seq<string>) returns (used: nat)
      modifies this`sent
      ensures used <= |lines|
      ensures forall i :: 0 <= i < used ==> !IsExit(lines[i])
      ensures used < |lines| ==> IsExit(lines[used])
      ensures sent == old(sent) + ChatFrames(codec, username, lines[..used])
    {
      used := 0;
      while used < |lines| && !IsExit(lines[used])
        invariant used <= |lines|
        invariant forall i :: 0 <= i < used ==> !IsExit(lines[i])
        invariant sent == old(sent) + ChatFrames(codec, username, lines[..used])
      {
        SendFrame(codec.toJson(NewMessage(Chat, username, Some(lines[used]))));
        ChatFramesStep(codec, username, old(sent), lines, used);
        used := used + 1;
      }
    }

    /**
     * `uploadFile`: the user's resource directory, a menu number, the bounds check,
     * then the FILE_UPLOAD metadata (user, name, length) followed by exactly the
     * file's bytes. Nothing is sent on any other path.
     */
    method UploadFile(dir: Option<Dir>, entered: Option<int>) returns (outcome: UploadOutcome)
      modifies this`sent
      ensures dir.None? ==> outcome == NoDirectory
      ensures dir.Some? && |dir.value| == 0 ==> outcome == NoFiles
      ensures dir.Some? && |dir.value| > 0 && entered.None? ==> outcome == NotANumber
      ensures dir.Some? && |dir.value| > 0 && entered.Some? && PickIndex(entered.value, |dir.value|).None? ==>
        outcome == InvalidChoice
      ensures outcome.Uploaded? <==>
        dir.Some? && entered.Some? && PickIndex(entered.value, |dir.value|).Some? &&
        dir.value[PickIndex(entered.value, |dir.value|).value].File?
      ensures outcome.Uploaded? ==>
        var file := dir.value[entered.value - 1];
        outcome.name == file.name &&
        sent == old(sent) + Frame(UploadMetadata(codec, username, file.name, |file.data|)) + file.data
      ensures !outcome.Uploaded? ==> sent == old(sent)
    {
      if dir.None? {
        return NoDirectory;
      }
      var files := dir.value;
      if |files| == 0 {
        return NoFiles;
      }
      if entered.None? {
        return NotANumber;
      }
      var choice := entered.value - 1;
      if choice < 0 || choice >= |files| {
        return InvalidChoice;
      }
      var file := files[choice];
      if file.Directory? {
        return ReadFailed;
      }
      var fileData := ReadFileToByteArray(file.data);
      var meta := NewMessageWithLength(FileUpload, username, Some(file.name), |file.data|);
      SendFrame(codec.toJson(meta));
      sent := sent + fileData;
      outcome := Uploaded(file.name);
    }

    /** The first step of `requestDownload`: ask for the file list. */
    method RequestFileList()
      modifies this`sent
      ensures sent == old(sent) + Frame(FileListRequest(codec, username))
    {
      SendFrame(codec.toJson(NewMessage(FileList, username, Some(""))));
    }

    /**
     * `requestDownload` once the file list has arrived: "NO_FILES" or "", or a
     * number out of bounds, clear the slot and request nothing; otherwise the chosen
     * name is requested and the slot is kept.
     */
    method ChooseDownload(entered: int) returns (requested: Option<string>)
      requires fileList.Some?
      modifies this`fileList, this`sent
      ensures var files := ParseFileList(old(fileList).value);
        (files.None? ==> requested == None && fileList == None && sent == old(sent)) &&
        (files.Some? && PickIndex(entered, |files.value|).None? ==>
           requested == None && fileList == None && sent == old(sent)) &&
        (files.Some? && PickIndex(entered, |files.value|).Some? ==>
           requested == Some(files.value[entered - 1]) && fileList == old(fileList) &&
           sent == old(sent) + Frame(codec.toJson(NewMessage(FileDownload, username, requested))))
    {
      var list := fileList.value;
      if list == "NO_FILES" || list == "" {
        fileList := None;
        return None;
      }
      var files := Split(list);
      var choice := entered - 1;
      if choice < 0 || choice >= |files| {
        fileList := None;
        return None;
      }
      var fileName := files[choice];
      SendFrame(codec.toJson(NewMessage(FileDownload, username, Some(fileName))));
      requested := Some(fileName);
    }

    /**
     * The end of `requestDownload`, once metadata and data have both arrived: save
     * the bytes under the chosen name, ask for a fresh list, and reset the fileList,
     * metadata and downloadedFileData slots. A save that fails leaves everything.
     */
    method FinishDownload(fileName: string) returns (saved: bool)
      requires metadata.Some? && downloadedFileData.Some?
      modifies this`downloadDir, this`fileList, this`metadata, this`downloadedFileData, this`sent
      ensures var stored := Save(old(downloadDir), fileName, old(downloadedFileData).value);
        saved == stored.Some? &&
        (saved ==>
          downloadDir == stored && fileList == None && metadata == None && downloadedFileData == None &&
          sent == old(sent) + Frame(FileListRequest(codec, username))) &&
        (!saved ==>
          downloadDir == old(downloadDir) && fileList == old(fileList) && metadata == old(metadata) &&
          downloadedFileData == old(downloadedFileData) && sent == old(sent))
    {
      var stored := Save(downloadDir, fileName, downloadedFileData.value);
      if stored.None? {
        return false;
      }
      downloadDir := stored;
      fileList := None;
      SendFrame(codec.toJson(NewMessage(FileList, username, Some(""))));
      fileList := None;
      metadata := None;
      downloadedFileData := None;
      saved := true;
    }
  }
}

=== FILE: filestore.dfy ===
/**
 * The server's and the client's file directories, as the program sees them through
 * java.io.File: a listing of entries in listing order, each a file with its bytes or
 * a sub-directory (whose `length()` the platform reports as some number).
 */
module FileStore {
  import opened Wrappers
  import opened Wire

  datatype Entry = File(name: string, data: seq<byte>) | Directory(name: string, reportedLength: int)

  type Dir = seq<Entry>

  /** A real directory never lists one name twice. */
  predicate UniqueNames(d: Dir)
  {
    forall i, j :: 0 <= i < j < |d| ==> d[i].name != d[j].name
  }

  /** `new File(dir, name)` and whether it exists: the first entry with that name. */
  function Find(d: Dir, name: string): (r: Option<Entry>)
    ensures r.Some? ==> r.value in d && r.value.name == name
    ensures r.None? <==> forall i :: 0 <= i < |d| ==> d[i].name != name
  {
    if d == [] then None
    else if d[0].name == name then Some(d[0])
    else Find(d[1..], name)
  }

  /** Lookup in a directory that may not exist (`exists()` false, or `listFiles()` null). */
  function Lookup(dir: Option<Dir>, name: string): Option<Entry>
  {
    if dir.None? then None else Find(dir.value, name)
  }

  /** The names of the `isFile()` entries, in listing order. */
  function FileNames(d: Dir): (r: seq<string>)
    ensures |r| <= |d|
    ensures forall n :: n in r <==> exists i :: 0 <= i < |d| && d[i].File? && d[i].name == n
  {
    if d == [] then []
    else
      var prefix := d[..|d| - 1];
      assert forall i :: 0 <= i < |prefix| ==> prefix[i] == d[i];
      FileNames(prefix) + (if d[|d| - 1].File? then [d[|d| - 1].name] else [])
  }

  /** In a listing without repeated names, the `isFile()` pass collects no name twice. */
  lemma {:induction false} FileNamesDistinct(d: Dir)
    requires UniqueNames(d)
    ensures Distinct(FileNames(d))
  {
    if d != [] {
      var prefix := d[..|d| - 1];
      assert UniqueNames(prefix);
      FileNamesDistinct(prefix);
      var last := d[|d| - 1];
      forall i | 0 <= i < |prefix|
        ensures prefix[i].name != last.name
      {
        assert prefix[i] == d[i];
      }
      assert last.name !in FileNames(prefix);
    }
  }

  /**
   * In a listing without repeated names, a name is collected by the `isFile()` pass
   * exactly when looking it up finds a file.
   */
  lemma FileNamesFind(d: Dir, n: string)
    requires UniqueNames(d)
    ensures n in FileNames(d) <==> Find(d, n).Some? && Find(d, n).value.File?
  {
    if n in FileNames(d) {
      var i :| 0 <= i < |d| && d[i].File? && d[i].name == n;
      assert Find(d, n).Some? && Find(d, n).value.name == n;
      var k :| 0 <= k < |d| && d[k] == Find(d, n).value;
      assert d[k].name == d[i].name;
      assert k == i;
    }
    if Find(d, n).Some? && Find(d, n).value.File? {
      var k :| 0 <= k < |d| && d[k] == Find(d, n).value;
      assert d[k].File? && d[k].name == n;
    }
  }

  /** The entries with `name` replaced by a file holding `data`. */
  function Overwrite(d: Dir, name: string, data: seq<byte>): (r: Dir)
    ensures |r| == |d|
    ensures forall i :: 0 <= i < |d| ==> r[i] == if d[i].name == name then File(name, data) else d[i]
  {
    seq(|d|, i requires 0 <= i < |d| => if d[i].name == name then File(name, data) else d[i])
  }

  lemma {:induction false} FindOverwrite(d: Dir, name: string, data: seq<byte>, n: string)
    ensures Find(Overwrite(d, name, data), n) ==
      if n == name && Find(d, n).Some? then Some(File(name, data)) else Find(d, n)
  {
    if d != [] {
      assert Overwrite(d, name, data)[1..] == Overwrite(d[1..], name, data);
      FindOverwrite(d[1..], name, data, n);
    }
  }

  lemma {:induction false} FindAppend(d: Dir, e: Entry, n: string)
    requires Find(d, e.name).None?
    ensures Find(d + [e], n) == if n == e.name then Some(e) else Find(d, n)
  {
    if d != [] {
      assert (d + [e])[1..] == d[1..] + [e];
      FindAppend(d[1..], e, n);
    }
  }

  lemma FindOverwriteAll(d: Dir, name: string, data: seq<byte>)
    ensures forall n ::
              Find(Overwrite(d, name, data), n) ==
              if n == name && Find(d, n).Some? then Some(File(name, data)) else Find(d, n)
  {
    forall n {
      FindOverwrite(d, name, data, n);
    }
  }

  lemma FindAppendAll(d: Dir, e: Entry)
    requires Find(d, e.name).None?
    ensures forall n :: Find(d + [e], n) == if n == e.name then Some(e) else Find(d, n)
  {
    forall n {
      FindAppend(d, e, n);
    }
  }

  /**
   * Names for which `new File(dir, name)` is a directory whatever `dir` lists:
   * the empty child is `dir` itself, "." is `dir` too and ".." is its parent.
   */
  predicate SelfOrParent(name: string)
  {
    name == "" || name == "." || name == ".."
  }

  /**
   * saveUploadedFile: `mkdirs()` when the directory is missing, then a
   * FileOutputStream that creates or truncates the file. None is the IOException
   * raised when the name denotes a directory.
   */
  function Save(dir: Option<Dir>, name: string, data: seq<byte>): (r: Option<Dir>)
    ensures r.None? <==> SelfOrParent(name) || (Lookup(dir, name).Some? && Lookup(dir, name).value.Directory?)
    ensures r.Some? ==> Lookup(r, name) == Some(File(name, data))
    ensures r.Some? ==> forall n :: n != name ==> Lookup(r, n) == Lookup(dir, n)
    ensures r.Some? && (dir.None? || UniqueNames(dir.value)) ==> UniqueNames(r.value)
  {
    if SelfOrParent(name) then
      None
    else if dir.None? then
      Some([File(name, data)])
    else
      match Find(dir.value, name)
      case None =>
        var d' := dir.value + [File(name, data)];
        FindAppendAll(dir.value, File(name, data));
        Some(d')
      case Some(Directory(_, _)) =>
        None
      case Some(File(_, _)) =>
        FindOverwriteAll(dir.value, name, data);
        Some(Overwrite(dir.value, name, data))
  }
}

=== FILE: handler.dfy ===
/**
 * One server-side connection (class ClientHandler): the frame-reading run loop,
 * the dispatcher over message types, and the actions it invokes — login, chat and
 * notice broadcast, the file list, upload and download.
 */
module Handler {
  import opened Wrappers
  import opened Shared
  import opened Wire
  import opened FileStore
  import opened ServerMain

  /** The JSON of `broadcast(text)`'s message: a CHAT from "Server". */
  function Notice(codec: Codec, text: string): string
  {
    codec.toJson(NewMessage(Chat, Some("Server"), Some(text)))
  }

  /** The JSON of the LOGIN_RESPONSE for an authentication outcome. */
  function LoginReply(codec: Codec, authenticated: bool): string
  {
    codec.toJson(NewMessage(LoginResponse, Some("Server"), Some(if authenticated then "success" else "failure")))
  }

  /** The JSON of a FILE_LIST reply carrying the list text. */
  function FileListReply(codec: Codec, listText: string): string
  {
    codec.toJson(NewMessage(FileList, Some("Server"), Some(listText)))
  }

  /** The JSON of the download metadata: the file's name and length. */
  function DownloadMetadata(codec: Codec, name: string, length: int): string
  {
    codec.toJson(NewMessageWithLength(FileDownload, Some("Server"), Some(name), length))
  }

  /** The JSON of the "File not found: " reply. */
  function NotFoundReply(codec: Codec, name: string): string
  {
    codec.toJson(NewMessage(FileDownload, Some("Server"), Some("File not found: " + name)))
  }

  /** `String.join(",", names)`. */
  function Join(names: seq<string>): string
  {
    if |names| == 0 then ""
    else if |names| == 1 then names[0]
    else names[0] + "," + Join(names[1..])
  }

  lemma {:induction false} JoinHasComma(names: seq<string>)
    requires |names| >= 2
    ensures ',' in Join(names)
  {
    assert Join(names)[|names[0]|] == ',';
  }

  /**
   * The list text: the sentinel "NO_FILES" for no names, otherwise the names
   * joined by ",". It is the sentinel exactly when no names were collected, or the
   * only name is "NO_FILES".
   */
  function ListText(names: seq<string>): (r: string)
    ensures r == "NO_FILES" <==> names == [] || names == ["NO_FILES"]
  {
    if |names| == 0 then "NO_FILES"
    else if |names| == 1 then Join(names)
    else
      JoinHasComma(names);
      assert ',' !in "NO_FILES";
      Join(names)
  }

  /** The first pass: the files of src/main/resources/Server/Files, in listing order. */
  function FileNamesOf(dir: Option<Dir>): seq<string>
  {
    if dir.None? then [] else FileNames(dir.value)
  }

  /**
   * The second pass over the classpath copy: a file's name is added only if absent.
   * It keeps what the first pass found, in order, and adds at most one name per entry.
   */
  function AddMissing(names: seq<string>, entries: Dir): (r: seq<string>)
    ensures names <= r
    ensures |r| <= |names| + |entries|
  {
    if entries == [] then names
    else
      var prior := AddMissing(names, entries[..|entries| - 1]);
      var e := entries[|entries| - 1];
      if e.File? && e.name !in prior then prior + [e.name] else prior
  }

  /** The second pass ends up holding exactly the first pass's names and the pass's file names. */
  lemma {:induction false} AddMissingNames(names: seq<string>, entries: Dir, n: string)
    ensures n in AddMissing(names, entries) <==>
      n in names || exists k :: 0 <= k < |entries| && entries[k].File? && entries[k].name == n
  {
    if entries != [] {
      var prefix := entries[..|entries| - 1];
      AddMissingNames(names, prefix, n);
      assert forall k :: 0 <= k < |prefix| ==> prefix[k] == entries[k];
    }
  }

  /** The names sendFileList and sendFileListToAllClients collect. */
  function ListedNames(serverDir: Option<Dir>, resourceDir: Option<Dir>): seq<string>
  {
    AddMissing(FileNamesOf(serverDir), if resourceDir.None? then [] else resourceDir.value)
  }

  /** The second pass adds each further file name once: it never introduces a repeat. */
  lemma {:induction false} AddMissingKeepsDistinct(names: seq<string>, entries: Dir)
    requires Distinct(names)
    ensures Distinct(AddMissing(names, entries))
  {
    if entries != [] {
      AddMissingKeepsDistinct(names, entries[..|entries| - 1]);
    }
  }

  /** Two server directories whose first passes agree on a name list it alike. */
  lemma ListedNamesAgree(a: Option<Dir>, b: Option<Dir>, resourceDir: Option<Dir>, n: string)
    requires n in FileNamesOf(a) <==> n in FileNamesOf(b)
    ensures n in ListedNames(a, resourceDir) <==> n in ListedNames(b, resourceDir)
  {
    var entries := if resourceDir.None? then [] else resourceDir.value;
    AddMissingNames(FileNamesOf(a), entries, n);
    AddMissingNames(FileNamesOf(b), entries, n);
  }

  /** After a save, the first pass finds a name other than the saved one as before. */
  lemma {:induction false} SaveKeepsFileNames(dir: Option<Dir>, name: string, data: seq<byte>, n: string)
    requires dir.None? || UniqueNames(dir.value)
    requires Save(dir, name, data).Some?
    requires n != name
    ensures n in FileNamesOf(Save(dir, name, data)) <==> n in FileNamesOf(dir)
  {
    var saved := Save(dir, name, data);
    assert Lookup(saved, n) == Lookup(dir, n);
    FileNamesFind(saved.value, n);
    if dir.Some? {
      FileNamesFind(dir.value, n);
    }
  }

  /**
   * The list sent after an upload into a server directory without repeated names
   * holds the uploaded name exactly once, has no repeats, and otherwise lists the
   * same names as before the upload.
   */
  lemma UploadListedOnce(dir: Option<Dir>, resourceDir: Option<Dir>, name: string, data: seq<byte>)
    requires dir.None? || UniqueNames(dir.value)
    requires Save(dir, name, data).Some?
    ensures var listed := ListedNames(Save(dir, name, data), resourceDir);
      Distinct(listed) && name in listed &&
      forall n :: n != name ==> (n in listed <==> n in ListedNames(dir, resourceDir))
  {
    var saved := Save(dir, name, data);
    FileNamesDistinct(saved.value);
    AddMissingKeepsDistinct(FileNamesOf(saved), if resourceDir.None? then [] else resourceDir.value);
    FileNamesFind(saved.value, name);
    AddMissingNames(FileNamesOf(saved), if resourceDir.None? then [] else resourceDir.value, name);
    forall n | n != name
      ensures n in ListedNames(saved, resourceDir) <==> n in ListedNames(dir, resourceDir)
    {
      SaveKeepsFileNames(dir, name, data, n);
      ListedNamesAgree(saved, dir, resourceDir, n);
    }
  }

  /**
   * The frame starting at `start` is one `run` can fail on: Gson cannot decode its
   * text, or it is an upload or a download, whose handling can raise. `end` is
   * where reading stopped: right after the frame, or after an upload's payload.
   */
  ghost predicate FrameFails(codec: Codec, data: seq<byte>, start: nat, end: nat)
  {
    start <= end <= |data| &&
    var f := NextFrame(data[start..]);
    f.Some? &&
    var m := codec.fromJson(f.value.0);
    (m.None? || m.value.kind == FileUpload || m.value.kind == FileDownload) &&
    end == start + f.value.1 +
      if m.Some? && m.value.kind == FileUpload && ToInt32(m.value.fileLength) >= 0
      then Min(ToInt32(m.value.fileLength), |data| - (start + f.value.1))
      else 0
  }

  class ClientHandler {
    /** The connection (the Java socket) this handler serves. */
    const id: nat
    const server: Server
    /** The socket's DataInputStream. */
    const input: InputStream
    var username: Option<string>
    var socketClosed: bool

    ghost predicate Valid()
      reads this, server, input
    {
      server.Valid() && input.Valid()
    }

    constructor (server: Server, id: nat, input: InputStream)
      ensures this.server == server && this.id == id && this.input == input
      ensures username == None && !socketClosed
    {
      this.server := server;
      this.id := id;
      this.input := input;
      username := None;
      socketClosed := false;
    }

    /**
     * `broadcast(msg)`: one CHAT from "Server" to every registered handler but this
     * one; the registry itself is not changed.
     */
    method Broadcast(msg: string)
      requires server.Valid()
      modifies server`outbox
      ensures server.outbox == Fanout(old(server.outbox), server.clients, Some(id), Notice(server.codec, msg))
      ensures Outbox(server.outbox, id) == Outbox(old(server.outbox), id)
      ensures forall c :: c in server.clients && c != id ==>
        Outbox(server.outbox, c) == Outbox(old(server.outbox), c) + Frame(Notice(server.codec, msg))
      ensures forall c :: c !in server.clients ==> Outbox(server.outbox, c) == Outbox(old(server.outbox), c)
    {
      var json := server.codec.toJson(NewMessage(Chat, Some("Server"), Some(msg)));
      var i := 0;
      while i < |server.clients|
        invariant 0 <= i <= |server.clients|
        invariant server.outbox == Fanout(old(server.outbox), server.clients[..i], Some(id), json)
      {
        var client := server.clients[i];
        assert server.clients[..i + 1][..i] == server.clients[..i];
        if client != id {
          server.SendMessage(client, json);
        }
        i := i + 1;
      }
      assert server.clients[..i] == server.clients;
      forall c ensures Outbox(server.outbox, c) ==
        if c in server.clients && Some(id) != Some(c) then Outbox(old(server.outbox), c) + Frame(json) else Outbox(old(server.outbox), c)
      {
        FanoutReaches(old(server.outbox), server.clients, Some(id), json, c);
      }
    }

    /**
     * `handleLogin`: replies "success" or "failure" as the table decides; only on
     * success is `username` set and the join notice broadcast.
     */
    method HandleLogin(user: Option<string>, password: Option<string>)
      requires server.Valid()
      modifies this`username, server`outbox
      ensures var ok := Authenticate(Users, user, password);
        username == (if ok then user else old(username)) &&
        server.outbox ==
          (if ok
           then Fanout(Deliver(old(server.outbox), id, LoginReply(server.codec, true)),
                       server.clients, Some(id), Notice(server.codec, user.value + " joined the chat!"))
           else Deliver(old(server.outbox), id, LoginReply(server.codec, false)))
    {
      var authenticated := Authenticate(Users, user, password);
      var response := NewMessage(LoginResponse, Some("Server"), Some(if authenticated then "success" else "failure"));
      server.SendMessage(id, server.codec.toJson(response));
      if authenticated {
        username := user;
        Broadcast(user.value + " joined the chat!");
      }
    }

    /** The two directory passes shared by sendFileList and sendFileListToAllClients. */
    method CollectFileNames() returns (names: seq<string>)
      ensures names == ListedNames(server.serverDir, server.resourceDir)
    {
      names := [];
      if server.serverDir.Some? {
        var serverFiles := server.serverDir.value;
        for i := 0 to |serverFiles|
          invariant names == FileNames(serverFiles[..i])
        {
          assert serverFiles[..i + 1][..i] == serverFiles[..i];
          if serverFiles[i].File? {
            names := names + [serverFiles[i].name];
          }
        }
        assert serverFiles[..|serverFiles|] == serverFiles;
      }
      ghost var first := names;
      var resourceFiles := if server.resourceDir.Some? then server.resourceDir.value else [];
      for i := 0 to |resourceFiles|
        invariant names == AddMissing(first, resourceFiles[..i])
      {
        assert resourceFiles[..i + 1][..i] == resourceFiles[..i];
        if resourceFiles[i].File? && resourceFiles[i].name !in names {
          names := names + [resourceFiles[i].name];
        }
      }
      assert resourceFiles[..|resourceFiles|] == resourceFiles;
    }

    /** `sendFileList`: the list text goes to this connection only. */
    method SendFileList()
      modifies server`outbox
      ensures server.outbox == Deliver(old(server.outbox), id,
        FileListReply(server.codec, ListText(ListedNames(server.serverDir, server.resourceDir))))
    {
      var fileNames := CollectFileNames();
      var fileListStr := ListText(fileNames);
      var message := NewMessage(FileList, Some("Server"), Some(fileListStr));
      server.SendMessage(id, server.codec.toJson(message));
    }

    /** `sendFileListToAllClients`: the list text goes to every registered handler, this one included. */
    method SendFileListToAllClients()
      modifies server`outbox
      ensures server.outbox == Fanout(old(server.outbox), server.clients, None,
        FileListReply(server.codec, ListText(ListedNames(server.serverDir, server.resourceDir))))
    {
      var fileNames := CollectFileNames();
      var fileListStr := ListText(fileNames);
      var json := server.codec.toJson(NewMessage(FileList, Some("Server"), Some(fileListStr)));
      SendToAll(json);
    }

    /** The loop of `sendFileListToAllClients`: the frame goes to every registered handler in turn. */
    method SendToAll(json: string)
      modifies server`outbox
      ensures server.outbox == Fanout(old(server.outbox), server.clients, None, json)
    {
      var clients := server.clients;
      var i := 0;
      while i < |clients|
        invariant 0 <= i <= |clients|
        invariant server.outbox == Fanout(old(server.outbox), clients[..i], None, json)
      {
        assert clients[..i + 1][..i] == clients[..i];
        server.SendMessage(clients[i], json);
        i := i + 1;
      }
      assert clients[..i] == clients;
    }

    /**
     * `receiveFile`: reads `fileLength` payload bytes (fewer at EOF). Only a complete
     * payload is saved, announced and followed by the file list to everyone.
     * `ok` false is an exception: a negative length (array size), a null name or a
     * name that is a directory.
     */
    method ReceiveFile(filename: Option<string>, fileLength: int) returns (ok: bool)
      requires Valid()
      modifies input`pos, server`outbox, server`serverDir
      ensures Valid()
      ensures fileLength < 0 ==>
        !ok && input.pos == old(input.pos) &&
        server.outbox == old(server.outbox) && server.serverDir == old(server.serverDir)
      ensures fileLength >= 0 ==>
        input.pos == old(input.pos) + Min(fileLength, |input.data| - old(input.pos))
      ensures fileLength >= 0 && |input.data| - old(input.pos) < fileLength ==>
        ok && server.outbox == old(server.outbox) && server.serverDir == old(server.serverDir)
      ensures 0 <= fileLength <= |input.data| - old(input.pos) ==>
        var saved := if filename.Some?
                     then Save(old(server.serverDir), filename.value, input.data[old(input.pos)..input.pos])
                     else None;
        (saved.None? ==> !ok && server.outbox == old(server.outbox) && server.serverDir == old(server.serverDir)) &&
        (saved.Some? ==>
          ok && server.serverDir == saved &&
          server.outbox ==
            Fanout(Fanout(old(server.outbox), server.clients, Some(id),
                          Notice(server.codec, Text(username) + " uploaded file " + filename.value)),
                   server.clients, None,
                   FileListReply(server.codec, ListText(ListedNames(saved, server.resourceDir)))))
    {
      if fileLength < 0 {
        return false;
      }
      var data, totalBytesRead := input.ReadPayload(fileLength);
      ok := true;
      if totalBytesRead == fileLength {
        assert data[..] == data[..totalBytesRead];
        ok := StoreUpload(filename, data[..]);
      }
    }

    /**
     * The end of `receiveFile` once the whole payload is in: write it under the
     * name in the server directory, announce the upload to the others, and send
     * the new list to everyone. `ok` false: a null name, or a name that is a
     * directory.
     */
    method StoreUpload(filename: Option<string>, data: seq<byte>) returns (ok: bool)
      requires server.Valid()
      modifies server`outbox, server`serverDir
      ensures var saved := if filename.Some? then Save(old(server.serverDir), filename.value, data) else None;
        (saved.None? ==> !ok && server.outbox == old(server.outbox) && server.serverDir == old(server.serverDir)) &&
        (saved.Some? ==>
          ok && server.serverDir == saved &&
          server.outbox ==
            Fanout(Fanout(old(server.outbox), server.clients, Some(id),
                          Notice(server.codec, Text(username) + " uploaded file " + filename.value)),
                   server.clients, None,
                   FileListReply(server.codec, ListText(ListedNames(saved, server.resourceDir)))))
    {
      if filename.None? {
        return false;
      }
      var saved := Save(server.serverDir, filename.value, data);
      if saved.None? {
        return false;
      }
      server.serverDir := saved;
      Broadcast(Text(username) + " uploaded file " + filename.value);
      SendFileListToAllClients();
      ok := true;
    }

    /**
     * `sendFileFromPath`: the metadata frame (name and `length()`), then the file's
     * bytes copied in reads of up to 4096. Opening a directory fails after the
     * metadata has gone out (`ok` false).
     */
    method SendFileFromPath(file: Entry) returns (ok: bool)
      modifies server`outbox
      ensures file.File? ==>
        ok && server.outbox ==
          Append(Deliver(old(server.outbox), id, DownloadMetadata(server.codec, file.name, |file.data|)), id, file.data)
      ensures file.Directory? ==>
        !ok && server.outbox == Deliver(old(server.outbox), id, DownloadMetadata(server.codec, file.name, file.reportedLength))
    {
      var length := if file.File? then |file.data| else file.reportedLength;
      var metadata := NewMessageWithLength(FileDownload, Some("Server"), Some(file.name), length);
      server.SendMessage(id, server.codec.toJson(metadata));
      if file.Directory? {
        return false;
      }
      CopyFile(file.data);
      ok := true;
    }

    /**
     * The copy loop of `sendFileFromPath`: reads of up to 4096 bytes, each written
     * as read. The metadata frame has already gone to this connection.
     */
    method CopyFile(data: seq<byte>)
      requires id in server.outbox
      modifies server`outbox
      ensures server.outbox == Append(old(server.outbox), id, data)
    {
      var fis := new InputStream(data);
      var buffer := new byte[4096];
      var totalBytesSent := 0;
      AppendNothing(old(server.outbox), id);
      assert data[..0] == [];
      while true
        invariant fis.Valid() && fis.data == data && buffer.Length == 4096
        invariant totalBytesSent == fis.pos
        invariant server.outbox == Append(old(server.outbox), id, data[..fis.pos])
        decreases |data| - fis.pos
      {
        ghost var before := fis.pos;
        var bytesRead := fis.Read(buffer, 0, buffer.Length);
        if bytesRead == -1 {
          break;
        }
        server.Write(id, buffer[..bytesRead]);
        assert data[..fis.pos] == data[..before] + buffer[..bytesRead];
        AppendTwice(old(server.outbox), id, data[..before], buffer[..bytesRead]);
        totalBytesSent := totalBytesSent + bytesRead;
      }
      assert data[..fis.pos] == data;
    }

    /**
     * `sendFile`: the server directory first, then the classpath copy, else the
     * "File not found: " reply with no payload. A failure while sending from the
     * classpath copy is caught there, so the not-found reply still follows.
     */
    method SendFile(fileName: Option<string>) returns (ok: bool)
      modifies server`outbox
      ensures fileName.None? ==> !ok && server.outbox == old(server.outbox)
      ensures fileName.Some? && Lookup(server.serverDir, fileName.value).Some? ==>
        var e := Lookup(server.serverDir, fileName.value).value;
        (e.File? ==>
           ok && server.outbox ==
           Append(Deliver(old(server.outbox), id, DownloadMetadata(server.codec, e.name, |e.data|)), id, e.data)) &&
        (e.Directory? ==>
           !ok && server.outbox ==
           Deliver(old(server.outbox), id, DownloadMetadata(server.codec, e.name, e.reportedLength)))
      ensures fileName.Some? && Lookup(server.serverDir, fileName.value).None? ==>
        ok &&
        match Lookup(server.resourceDir, fileName.value)
        case Some(File(n, d)) =>
          server.outbox == Append(Deliver(old(server.outbox), id, DownloadMetadata(server.codec, n, |d|)), id, d)
        case Some(Directory(n, len)) =>
          server.outbox == Deliver(Deliver(old(server.outbox), id, DownloadMetadata(server.codec, n, len)),
                                   id, NotFoundReply(server.codec, fileName.value))
        case None =>
          server.outbox == Deliver(old(server.outbox), id, NotFoundReply(server.codec, fileName.value))
    {
      if fileName.None? {
        return false;
      }
      var serverFile := Lookup(server.serverDir, fileName.value);
      if serverFile.Some? {
        ok := SendFileFromPath(serverFile.value);
        return;
      }
      SendFromClasspath(fileName.value);
      ok := true;
    }

    /**
     * The fallback of `sendFile` once the server directory lacks the name: the
     * classpath copy if it has a file by that name, otherwise (a sub-directory
     * included, after its metadata) the "File not found: " reply.
     */
    method SendFromClasspath(fileName: string)
      modifies server`outbox
      ensures match Lookup(server.resourceDir, fileName)
        case Some(File(n, d)) =>
          server.outbox == Append(Deliver(old(server.outbox), id, DownloadMetadata(server.codec, n, |d|)), id, d)
        case Some(Directory(n, len)) =>
          server.outbox == Deliver(Deliver(old(server.outbox), id, DownloadMetadata(server.codec, n, len)),
                                   id, NotFoundReply(server.codec, fileName))
        case None =>
          server.outbox == Deliver(old(server.outbox), id, NotFoundReply(server.codec, fileName))
    {
      var resourceFile := Lookup(server.resourceDir, fileName);
      var sent := false;
      if resourceFile.Some? {
        sent := SendFileFromPath(resourceFile.value);
      }
      if !sent {
        var error := NewMessage(FileDownload, Some("Server"), Some("File not found: " + fileName));
        server.SendMessage(id, server.codec.toJson(error));
      }
    }

    /**
     * The LOGOUT case and the `finally` block, which share this code: remove this
     * handler from the registry, announce the departure of a logged-in user to the
     * others, close the socket.
     */
    method Teardown()
      requires server.Valid()
      modifies server`clients, server`outbox, this`socketClosed
      ensures server.Valid()
      ensures server.clients == Remove(old(server.clients), id) && id !in server.clients
      ensures server.outbox ==
        if username.Some?
        then Fanout(old(server.outbox), server.clients, Some(id), Notice(server.codec, username.value + " left the chat."))
        else old(server.outbox)
      ensures socketClosed
    {
      RemoveDistinct(server.clients, id);
      server.clients := Remove(server.clients, id);
      if username.Some? {
        Broadcast(username.value + " left the chat.");
      }
      socketClosed := true;
    }

    /** The `switch (message.type)` of `run`: one message, one action. */
    method Dispatch(message: Message) returns (status: Status)
      requires Valid()
      modifies this`username, this`socketClosed, server`clients, server`outbox, server`serverDir, input`pos
      ensures Valid()
      ensures status == Stop <==> message.kind == Logout
      ensures status == Failed ==> message.kind == FileUpload || message.kind == FileDownload
      ensures message.kind != Logout ==> server.clients == old(server.clients)
      ensures message.kind == Logout ==> server.clients == Remove(old(server.clients), id) && socketClosed
      ensures message.kind != Logout ==> socketClosed == old(socketClosed)
      ensures message.kind != FileUpload ==>
        input.pos == old(input.pos) && server.serverDir == old(server.serverDir)
      ensures old(input.pos) <= input.pos
      ensures message.kind == Login ==>
        username == (if Authenticate(Users, message.sender, message.content) then message.sender else old(username))
      ensures message.kind != Login ==> username == old(username)
      ensures message.kind == Chat ==>
        server.outbox == Fanout(old(server.outbox), server.clients, Some(id),
                                Notice(server.codec, Text(message.sender) + ": " + Text(message.content)))
      ensures message.kind == FileList ==>
        server.outbox == Deliver(old(server.outbox), id,
                                 FileListReply(server.codec, ListText(ListedNames(server.serverDir, server.resourceDir))))
      ensures message.kind !in {Login, Chat, FileList, FileUpload, FileDownload, Logout} ==>
        status == Continue && server.outbox == old(server.outbox)
      ensures message.kind == Login ==>
        server.outbox ==
          (if Authenticate(Users, message.sender, message.content)
           then Fanout(Deliver(old(server.outbox), id, LoginReply(server.codec, true)),
                       server.clients, Some(id), Notice(server.codec, message.sender.value + " joined the chat!"))
           else Deliver(old(server.outbox), id, LoginReply(server.codec, false)))
      ensures message.kind == FileUpload && ToInt32(message.fileLength) < 0 ==>
        status == Failed && server.outbox == old(server.outbox) &&
        input.pos == old(input.pos) && server.serverDir == old(server.serverDir)
      ensures message.kind == FileUpload && ToInt32(message.fileLength) >= 0 ==>
        input.pos == old(input.pos) + Min(ToInt32(message.fileLength), |input.data| - old(input.pos))
      ensures message.kind == FileUpload && 0 <= |input.data| - old(input.pos) < ToInt32(message.fileLength) ==>
        status == Continue && server.outbox == old(server.outbox) && server.serverDir == old(server.serverDir)
      ensures message.kind == FileUpload && 0 <= ToInt32(message.fileLength) <= |input.data| - old(input.pos) ==>
        var saved := if message.content.Some?
                     then Save(old(server.serverDir), message.content.value, input.data[old(input.pos)..input.pos])
                     else None;
        (saved.None? ==> status == Failed && server.outbox == old(server.outbox) && server.serverDir == old(server.serverDir)) &&
        (saved.Some? ==>
          status == Continue && server.serverDir == saved &&
          server.outbox ==
            Fanout(Fanout(old(server.outbox), server.clients, Some(id),
                          Notice(server.codec, Text(username) + " uploaded file " + message.content.value)),
                   server.clients, None,
                   FileListReply(server.codec, ListText(ListedNames(saved, server.resourceDir)))))
      ensures message.kind == FileDownload && message.content.None? ==>
        status == Failed && server.outbox == old(server.outbox)
      ensures message.kind == FileDownload && message.content.Some? ==>
        var name := message.content.value;
        match Lookup(server.serverDir, name)
        case Some(File(n, d)) =>
          status == Continue &&
          server.outbox == Append(Deliver(old(server.outbox), id, DownloadMetadata(server.codec, n, |d|)), id, d)
        case Some(Directory(n, len)) =>
          status == Failed &&
          server.outbox == Deliver(old(server.outbox), id, DownloadMetadata(server.codec, n, len))
        case None =>
          status == Continue &&
          match Lookup(server.resourceDir, name)
          case Some(File(n, d)) =>
            server.outbox == Append(Deliver(old(server.outbox), id, DownloadMetadata(server.codec, n, |d|)), id, d)
          case Some(Directory(n, len)) =>
            server.outbox == Deliver(Deliver(old(server.outbox), id, DownloadMetadata(server.codec, n, len)),
                                     id, NotFoundReply(server.codec, name))
          case None =>
            server.outbox == Deliver(old(server.outbox), id, NotFoundReply(server.codec, name))
      ensures message.kind == Logout ==>
        server.outbox ==
          if username.Some?
          then Fanout(old(server.outbox), server.clients, Some(id), Notice(server.codec, username.value + " left the chat."))
          else old(server.outbox)
    {
      status := Continue;
      if message.kind == Login {
        HandleLogin(message.sender, message.content);
      } else if message.kind == Chat {
        Broadcast(Text(message.sender) + ": " + Text(message.content));
      } else if message.kind == FileList {
        SendFileList();
      } else if message.kind == FileUpload {
        var ok := ReceiveFile(message.content, ToInt32(message.fileLength));
        if !ok {
          status := Failed;
        }
      } else if message.kind == FileDownload {
        var ok := SendFile(message.content);
        if !ok {
          status := Failed;
        }
      } else if message.kind == Logout {
        Teardown();
        status := Stop;
      }
    }

    /**
     * What the `switch` in `run` did with a message of a type that cannot raise,
     * given the outbox and username before it: the LOGIN reply and join notice,
     * the CHAT broadcast, the FILE_LIST reply, and nothing for an unknown type.
     */
    ghost predicate Dispatched(m: Message, status: Status, outbox0: map<nat, seq<byte>>, username0: Option<string>)
      reads this, server
    {
      (m.kind == Login ==>
         status == Continue &&
         username == (if Authenticate(Users, m.sender, m.content) then m.sender else username0) &&
         server.outbox ==
           (if Authenticate(Users, m.sender, m.content)
            then Fanout(Deliver(outbox0, id, LoginReply(server.codec, true)),
                        server.clients, Some(id), Notice(server.codec, m.sender.value + " joined the chat!"))
            else Deliver(outbox0, id, LoginReply(server.codec, false)))) &&
      (m.kind == Chat ==>
         status == Continue && username == username0 &&
         server.outbox == Fanout(outbox0, server.clients, Some(id),
                                 Notice(server.codec, Text(m.sender) + ": " + Text(m.content)))) &&
      (m.kind == FileList ==>
         status == Continue && username == username0 &&
         server.outbox == Deliver(outbox0, id,
                                  FileListReply(server.codec, ListText(ListedNames(server.serverDir, server.resourceDir))))) &&
      (m.kind !in {Login, Chat, FileList, FileUpload, FileDownload, Logout} ==>
         status == Continue && username == username0 && server.outbox == outbox0)
    }

    /**
     * One pass of the loop inside `run`'s `try`: read a frame, decode it and
     * dispatch it. `ended` is EOF before a whole frame (the loop's `break`);
     * `decoded` is what Gson made of the frame; `Failed` is an exception, a frame
     * Gson cannot decode included.
     */
    method ServeFrame() returns (ended: bool, status: Status, ghost decoded: Option<Message>)
      requires Valid()
      modifies this`username, this`socketClosed, server`clients, server`outbox, server`serverDir, input`pos
      ensures Valid()
      ensures ended <==> NextFrame(input.data[old(input.pos)..]).None?
      ensures ended ==>
        status == Continue && input.pos == |input.data| && server.outbox == old(server.outbox) &&
        username == old(username) && server.clients == old(server.clients)
      ensures !ended ==> old(input.pos) + NextFrame(input.data[old(input.pos)..]).value.1 <= input.pos
      ensures LeadsWith(server.codec, input.data, old(input.pos), Logout) ==>
        status == Stop
      ensures status == Stop ==> FrameOfKind(server.codec, input.data, old(input.pos), input.pos, Logout)
      ensures status == Failed ==> FrameFails(server.codec, input.data, old(input.pos), input.pos)
      ensures status != Stop ==> server.clients == old(server.clients)
      ensures status == Stop ==>
        server.clients == Remove(old(server.clients), id) &&
        server.outbox ==
          if username.Some?
          then Fanout(old(server.outbox), server.clients, Some(id), Notice(server.codec, username.value + " left the chat."))
          else old(server.outbox)
      ensures ended ==> decoded.None?
      ensures !ended ==> decoded == server.codec.fromJson(NextFrame(input.data[old(input.pos)..]).value.0)
      ensures decoded.Some? && decoded.value.kind != FileUpload ==>
        input.pos == old(input.pos) + NextFrame(input.data[old(input.pos)..]).value.1 &&
        server.serverDir == old(server.serverDir)
      ensures decoded.Some? ==> Dispatched(decoded.value, status, old(server.outbox), old(username))
    {
      var line := input.ReadFrame();
      if line.None? {
        return true, Continue, None;
      }
      ended := false;
      var message := server.codec.fromJson(line.value);
      decoded := message;
      if message.None? {
        status := Failed;
      } else {
        status := Dispatch(message.value);
      }
    }

    /**
     * The `while (true)` loop inside `run`'s `try`: frames are served until EOF
     * (`Continue`), LOGOUT (`Stop`) or an exception (`Failed`). When it ends on
     * LOGOUT, `beforeLogout` is the outbox just before that message was
     * dispatched and `logoutAt` is where its frame starts: it is the last frame read.
     * When it fails, the last frame read starts at `failedAt` and is one that can fail.
     */
    method ServeFrames() returns (status: Status, ghost beforeLogout: Option<map<nat, seq<byte>>>, ghost logoutAt: nat,
                                  ghost failedAt: nat)
      requires Valid()
      modifies this`username, this`socketClosed, server`clients, server`outbox, server`serverDir, input`pos
      ensures Valid()
      ensures old(input.pos) <= input.pos
      ensures status == Continue ==> input.pos == |input.data|
      ensures NextFrame(input.data[old(input.pos)..]).None? ==>
        status == Continue && server.outbox == old(server.outbox) &&
        username == old(username) && server.clients == old(server.clients)
      ensures LeadsWith(server.codec, input.data, old(input.pos), Logout) ==>
        status == Stop && beforeLogout == Some(old(server.outbox)) && logoutAt == old(input.pos)
      ensures status == Stop <==> beforeLogout.Some?
      ensures status != Stop ==> server.clients == old(server.clients)
      ensures status == Stop ==> server.clients == Remove(old(server.clients), id)
      ensures status == Stop ==>
        server.outbox ==
          if username.Some?
          then Fanout(beforeLogout.value, server.clients, Some(id), Notice(server.codec, username.value + " left the chat."))
          else beforeLogout.value
      ensures status == Stop ==>
        old(input.pos) <= logoutAt && FrameOfKind(server.codec, input.data, logoutAt, input.pos, Logout)
      ensures status == Failed ==>
        old(input.pos) <= failedAt && FrameFails(server.codec, input.data, failedAt, input.pos)
    {
      status := Continue;
      beforeLogout := None;
      logoutAt := input.pos;
      failedAt := input.pos;
      ghost var first := true;
      while status == Continue
        invariant Valid()
        invariant old(input.pos) <= input.pos
        invariant first ==>
          (status == Continue && input.pos == old(input.pos) && server.outbox == old(server.outbox) &&
           username == old(username) && server.clients == old(server.clients))
        invariant status == Stop <==> beforeLogout.Some?
        invariant status != Stop ==> server.clients == old(server.clients)
        invariant status == Stop ==> server.clients == Remove(old(server.clients), id)
        invariant status == Stop ==>
          server.outbox ==
            if username.Some?
            then Fanout(beforeLogout.value, server.clients, Some(id), Notice(server.codec, username.value + " left the chat."))
            else beforeLogout.value
        invariant status == Stop ==>
          old(input.pos) <= logoutAt && FrameOfKind(server.codec, input.data, logoutAt, input.pos, Logout)
        invariant status == Failed ==>
          old(input.pos) <= failedAt && FrameFails(server.codec, input.data, failedAt, input.pos)
        invariant !first ==> NextFrame(input.data[old(input.pos)..]).Some?
        invariant !first && LeadsWith(server.codec, input.data, old(input.pos), Logout) ==>
          status == Stop && beforeLogout == Some(old(server.outbox)) && logoutAt == old(input.pos)
        decreases |input.data| - input.pos
      {
        ghost var start := input.pos;
        ghost var before := server.outbox;
        var ended;
        ghost var decoded;
        ended, status, decoded := ServeFrame();
        if ended {
          // EOF: a first frame that is a LOGOUT would have stopped the loop already
          assert !LeadsWith(server.codec, input.data, old(input.pos), Logout);
          break;
        }
        if status == Stop {
          beforeLogout := Some(before);
          logoutAt := start;
        } else if status == Failed {
          failedAt := start;
        }
        first := false;
      }
    }

    /**
     * `run`: the frame loop, then the `finally` block. However it ends, this
     * handler is no longer registered and its socket is closed. When it ends on
     * LOGOUT (the last frame read, starting at `logoutAt`), the LOGOUT case and
     * the `finally` block each announce the departure of a logged-in user, one
     * after the other, on top of `beforeLogout`. When it ends on an exception,
     * `failedAt` is where the last frame read starts, and that frame is one that
     * can fail. Otherwise the stream was read to its end.
     */
    method Run() returns (ghost beforeLogout: Option<map<nat, seq<byte>>>, ghost logoutAt: nat,
                          ghost failedAt: Option<nat>)
      requires Valid()
      modifies this`username, this`socketClosed, server`clients, server`outbox, server`serverDir, input`pos
      ensures Valid()
      ensures server.clients == Remove(old(server.clients), id) && id !in server.clients
      ensures socketClosed
      ensures beforeLogout.Some? ==> failedAt.None?
      ensures beforeLogout.None? && failedAt.None? ==> input.pos == |input.data|
      ensures failedAt.Some? ==>
        old(input.pos) <= failedAt.value && FrameFails(server.codec, input.data, failedAt.value, input.pos)
      ensures NextFrame(input.data[old(input.pos)..]).None? ==>
        beforeLogout.None? && failedAt.None? && input.pos == |input.data| && username == old(username) &&
        server.outbox ==
          if username.Some?
          then Fanout(old(server.outbox), server.clients, Some(id), Notice(server.codec, username.value + " left the chat."))
          else old(server.outbox)
      ensures LeadsWith(server.codec, input.data, old(input.pos), Logout) ==>
        beforeLogout == Some(old(server.outbox)) && logoutAt == old(input.pos)
      ensures beforeLogout.Some? ==>
        old(input.pos) <= logoutAt && FrameOfKind(server.codec, input.data, logoutAt, input.pos, Logout)
      ensures beforeLogout.Some? ==>
        var rest := Remove(old(server.clients), id);
        var notice := Notice(server.codec, Text(username) + " left the chat.");
        server.outbox ==
          if username.Some?
          then Fanout(Fanout(beforeLogout.value, rest, Some(id), notice), Remove(rest, id), Some(id), notice)
          else beforeLogout.value
      ensures beforeLogout.Some? && username.Some? ==>
        forall c :: Outbox(server.outbox, c) ==
          if c in old(server.clients) && c != id
          then Outbox(beforeLogout.value, c) + Frame(Notice(server.codec, username.value + " left the chat."))
                                            + Frame(Notice(server.codec, username.value + " left the chat."))
          else Outbox(beforeLogout.value, c)
    {
      var status;
      ghost var failed;
      status, beforeLogout, logoutAt, failed := ServeFrames();
      failedAt := if status == Failed then Some(failed) else None;
      if status == Stop {
        RemoveDistinct(old(server.clients), id);
      }
      Teardown();
      if beforeLogout.Some? && username.Some? {
        forall c {
          LogoutAnnouncesTwice(beforeLogout.value, old(server.clients), id,
                               Notice(server.codec, username.value + " left the chat."), c);
        }
      }
    }
  }

  /**
   * On LOGOUT the departure is announced twice: once by the LOGOUT case and once
   * more by the `finally` block, to the same recipients (every other registered
   * handler), and never to the one leaving.
   */
  lemma {:induction false} LogoutAnnouncesTwice(o: map<nat, seq<byte>>, clients: seq<nat>, id: nat, text: string, c: nat)
    requires Distinct(clients)
    ensures var rest := Remove(clients, id);
      Outbox(Fanout(Fanout(o, rest, Some(id), text), Remove(rest, id), Some(id), text), c) ==
        if c in clients && c != id then Outbox(o, c) + Frame(text) + Frame(text) else Outbox(o, c)
  {
    var rest := Remove(clients, id);
    RemoveDistinct(clients, id);
    assert Remove(rest, id) == rest;
    FanoutReaches(o, rest, Some(id), text, c);
    FanoutReaches(Fanout(o, rest, Some(id), text), rest, Some(id), text, c);
  }
}

=== FILE: protocol.dfy ===
/**
 * Properties that connect the two ends of the connection: the file-list text the
 * server writes and the client's reading of it, and the upload byte layout.
 */
module Protocol {
  import opened Wrappers
  import opened Wire
  import opened Handler
  import opened ClientMain

  predicate CommaFree(name: string)
  {
    ',' !in name
  }

  /** Splitting text that starts with a comma-free run glues that run onto the first piece. */
  lemma {:induction false} PiecesPrefix(a: string, t: string)
    requires CommaFree(a)
    ensures Pieces(a + t) == [a + Pieces(t)[0]] + Pieces(t)[1..]
  {
    if a == [] {
      assert a + t == t;
      assert a + Pieces(t)[0] == Pieces(t)[0];
      assert [Pieces(t)[0]] + Pieces(t)[1..] == Pieces(t);
    } else {
      assert (a + t)[1..] == a[1..] + t;
      PiecesPrefix(a[1..], t);
      assert [a[0]] + (a[1..] + Pieces(t)[0]) == a + Pieces(t)[0];
    }
  }

  /** Splitting the joined text gives back every piece, empty ones included. */
  lemma {:induction false} PiecesJoin(names: seq<string>)
    requires |names| >= 1
    requires forall i :: 0 <= i < |names| ==> CommaFree(names[i])
    ensures Pieces(Join(names)) == names
  {
    if |names| == 1 {
      PiecesPrefix(names[0], "");
      assert names[0] + "" == names[0];
      assert Join(names) == names[0] + "";
    } else {
      var rest := Join(names[1..]);
      PiecesJoin(names[1..]);
      assert Join(names) == names[0] + ("," + rest);
      PiecesPrefix(names[0], "," + rest);
      assert ("," + rest)[1..] == rest;
      assert Pieces("," + rest) == [""] + names[1..];
      assert names[0] + "" == names[0];
      assert [names[0]] + names[1..] == names;
    }
  }

  /**
   * The file-list round trip: for at least one comma-free name, the last of them
   * non-empty, the client's menu shows exactly the names the server listed,
   * unless the list is the single name "NO_FILES", which reads as "no files".
   */
  lemma FileListRoundTrip(names: seq<string>)
    requires forall i :: 0 <= i < |names| ==> CommaFree(names[i])
    requires |names| >= 1 ==> names[|names| - 1] != ""
    ensures names == [] ==> ParseFileList(ListText(names)) == None
    ensures names == ["NO_FILES"] ==> ParseFileList(ListText(names)) == None
    ensures names != [] && names != ["NO_FILES"] ==> ParseFileList(ListText(names)) == Some(names)
  {
    if names != [] {
      PiecesJoin(names);
      assert Join(names) != "";
    }
  }

  /**
   * A trailing empty name is lost on the client: `split` drops trailing empty
   * strings, so a server list ending in an empty name reads back one shorter.
   */
  lemma TrailingEmptyNameIsLost()
    ensures ParseFileList(ListText(["a.txt", ""])) == Some(["a.txt"])
  {
    PiecesJoin(["a.txt", ""]);
  }

  /**
   * The upload layout: the metadata frame, then the raw file bytes. A reader
   * that takes one frame and then as many bytes as the frame announces gets
   * back the metadata text and exactly the file's content.
   */
  lemma UploadIsSeparable(json: string, data: seq<byte>, rest: seq<byte>)
    requires Latin1Line(json)
    ensures var bs := Frame(json) + data + rest;
      NextFrame(bs) == Some((json, |json| + 1)) &&
      bs[|json| + 1..][..|data|] == data
  {
    var bs := Frame(json) + data + rest;
    assert bs == Frame(json) + (data + rest);
    FrameRoundTrip(json, data + rest);
    assert bs[|json| + 1..] == data + rest;
  }
}

=== FILE: receiver.dfy ===
/**
 * The client's receiving thread (class ClientReceiver): reads frames from the
 * server, prints chat lines and not-found notices, and fills the controller's
 * pending-request slots.
 */
module Receiver {
  import opened Wrappers
  import opened Shared
  import opened Wire
  import opened ClientMain

  /** The content of a not-found reply starts with this text. */
  const NotFoundPrefix: string := "File not found"

  /** Whether a FILE_DOWNLOAD reply is the not-found notice rather than metadata. */
  predicate IsNotFound(content: string)
  {
    NotFoundPrefix <= content
  }

  /**
   * The server's "File not found: <name>" reply is recognised as the notice. So is
   * the metadata of a file whose name itself starts with "File not found": its
   * payload is then not read off the stream.
   */
  lemma NotFoundRecognised(name: string, suffix: string)
    ensures IsNotFound("File not found: " + name)
    ensures IsNotFound(NotFoundPrefix + suffix)
  {
    assert ("File not found: " + name)[..|NotFoundPrefix|] == NotFoundPrefix;
    assert (NotFoundPrefix + suffix)[..|NotFoundPrefix|] == NotFoundPrefix;
  }

  /**
   * The frame starting at `start` is one `run` fails on: Gson cannot decode it,
   * or it is a FILE_DOWNLOAD whose content is null, or whose content is not the
   * not-found notice while its length is negative. Nothing after it is read, so
   * reading stopped at `end`, right after the frame.
   */
  ghost predicate FrameFails(codec: Codec, data: seq<byte>, start: nat, end: nat)
  {
    start <= |data| &&
    var f := NextFrame(data[start..]);
    f.Some? && end == start + f.value.1 &&
    var m := codec.fromJson(f.value.0);
    m.None? ||
    (m.value.kind == FileDownload &&
     (m.value.content.None? || (!IsNotFound(m.value.content.value) && ToInt32(m.value.fileLength) < 0)))
  }

  class ClientReceiver {
    /** The controller whose slots this thread fills. */
    const client: Client
    /** The socket's input stream. */
    const input: InputStream
    /** The lines printed to the console, in order. */
    var shown: seq<string>

    ghost predicate Valid()
      reads this, input
    {
      input.Valid()
    }

    constructor (client: Client, input: InputStream)
      requires input.Valid()
      ensures Valid() && this.client == client && this.input == input && shown == []
    {
      this.client := client;
      this.input := input;
      shown := [];
    }

    /**
     * `receiveFileData`: read up to `fileLength` payload bytes; the data slot gets
     * them only when all arrived, and null when the stream ended first.
     */
    method ReceiveFileData(fileLength: nat)
      requires Valid()
      modifies input`pos, client`downloadedFileData
      ensures Valid()
      ensures input.pos == old(input.pos) + Min(fileLength, |input.data| - old(input.pos))
      ensures client.downloadedFileData ==
        if fileLength <= |input.data| - old(input.pos) then Some(input.data[old(input.pos)..input.pos]) else None
    {
      var data, totalBytesRead := input.ReadPayload(fileLength);
      if totalBytesRead == fileLength {
        assert data[..] == data[..totalBytesRead];
        client.SetDownloadedFileData(Some(data[..]));
      } else {
        client.SetDownloadedFileData(None);
      }
    }

    /**
     * One message of `run`. CHAT is printed; FILE_LIST and LOGIN_RESPONSE fill
     * their slots with the content; FILE_DOWNLOAD prints a not-found notice, or
     * stores the message as metadata and reads `(int) fileLength` payload bytes;
     * LOGOUT stops the loop; other types are ignored. A null content on
     * FILE_DOWNLOAD, or a negative length, raises and ends the loop (Failed).
     */
    method Dispatch(message: Message) returns (status: Status)
      requires Valid()
      modifies this`shown, input`pos, client`fileList, client`loginResponse, client`metadata,
        client`downloadedFileData
      ensures Valid()
      ensures status == Stop <==> message.kind == Logout
      ensures status == Failed <==>
        message.kind == FileDownload &&
        (message.content.None? ||
         (!IsNotFound(message.content.value) && ToInt32(message.fileLength) < 0))
      ensures message.kind == Chat ==> shown == old(shown) + [Text(message.content)]
      ensures message.kind != Chat && !(message.kind == FileDownload && message.content.Some? &&
                                       IsNotFound(message.content.value)) ==>
        shown == old(shown)
      ensures message.kind == FileList ==> client.fileList == message.content
      ensures message.kind != FileList ==> client.fileList == old(client.fileList)
      ensures message.kind == LoginResponse ==> client.loginResponse == message.content
      ensures message.kind != LoginResponse ==> client.loginResponse == old(client.loginResponse)
      ensures message.kind == FileDownload && message.content.Some? ==>
        var length := ToInt32(message.fileLength);
        if IsNotFound(message.content.value) then
          shown == old(shown) + [message.content.value] &&
          client.metadata == old(client.metadata) && input.pos == old(input.pos) &&
          client.downloadedFileData == old(client.downloadedFileData)
        else
          client.metadata == Some(message) &&
          (length < 0 ==>
             input.pos == old(input.pos) && client.downloadedFileData == old(client.downloadedFileData)) &&
          (length >= 0 ==>
             input.pos == old(input.pos) + Min(length, |input.data| - old(input.pos)) &&
             client.downloadedFileData ==
               if length <= |input.data| - old(input.pos) then Some(input.data[old(input.pos)..input.pos]) else None)
      ensures !(message.kind == FileDownload && message.content.Some?) ==>
        input.pos == old(input.pos) && client.metadata == old(client.metadata) &&
        client.downloadedFileData == old(client.downloadedFileData)
    {
      status := Continue;
      if message.kind == Chat {
        shown := shown + [Text(message.content)];
      } else if message.kind == FileList {
        client.SetFileList(message.content);
      } else if message.kind == LoginResponse {
        client.SetLoginResponse(message.content);
      } else if message.kind == FileDownload {
        if message.content.None? {
          return Failed;
        }
        if IsNotFound(message.content.value) {
          shown := shown + [message.content.value];
        } else {
          client.SetMetadata(Some(message));
          var length := ToInt32(message.fileLength);
          if length < 0 {
            return Failed;
          }
          ReceiveFileData(length);
        }
      } else if message.kind == Logout {
        status := Stop;
      }
    }

    /**
     * One pass of `run`'s loop: read a frame, decode it and dispatch it. `ended`
     * is EOF before a whole frame (the loop's `break`); `decoded` is what Gson
     * made of the frame; `Failed` is an exception, a frame Gson cannot decode
     * included.
     */
    method ReceiveFrame() returns (ended: bool, status: Status, ghost decoded: Option<Message>)
      requires Valid()
      modifies this`shown, input`pos, client`fileList, client`loginResponse, client`metadata,
        client`downloadedFileData
      ensures Valid()
      ensures ended <==> NextFrame(input.data[old(input.pos)..]).None?
      ensures ended ==>
        status == Continue && input.pos == |input.data| && shown == old(shown) &&
        client.fileList == old(client.fileList) && client.loginResponse == old(client.loginResponse) &&
        client.metadata == old(client.metadata) && client.downloadedFileData == old(client.downloadedFileData)
      ensures !ended ==> old(input.pos) + NextFrame(input.data[old(input.pos)..]).value.1 <= input.pos
      ensures LeadsWith(client.codec, input.data, old(input.pos), Logout) ==>
        status == Stop && FrameOfKind(client.codec, input.data, old(input.pos), input.pos, Logout) && shown == old(shown) &&
        client.fileList == old(client.fileList) && client.loginResponse == old(client.loginResponse) &&
        client.metadata == old(client.metadata) && client.downloadedFileData == old(client.downloadedFileData)
      ensures status == Stop ==> FrameOfKind(client.codec, input.data, old(input.pos), input.pos, Logout)
      ensures status == Failed <==> !ended && FrameFails(client.codec, input.data, old(input.pos), input.pos)
      ensures ended ==> decoded.None?
      ensures !ended ==> decoded == client.codec.fromJson(NextFrame(input.data[old(input.pos)..]).value.0)
      ensures decoded.Some? && decoded.value.kind == Chat ==>
        status == Continue && shown == old(shown) + [Text(decoded.value.content)]
      ensures decoded.Some? && decoded.value.kind == FileList ==>
        status == Continue && client.fileList == decoded.value.content
      ensures decoded.Some? && decoded.value.kind == LoginResponse ==>
        status == Continue && client.loginResponse == decoded.value.content
      ensures decoded.Some? && decoded.value.kind != Chat && decoded.value.kind != FileDownload ==>
        shown == old(shown) && input.pos == old(input.pos) + NextFrame(input.data[old(input.pos)..]).value.1
    {
      var line := input.ReadFrame();
      if line.None? {
        return true, Continue, None;
      }
      ended := false;
      var message := client.codec.fromJson(line.value);
      decoded := message;
      if message.None? {
        status := Failed;
      } else {
        status := Dispatch(message.value);
      }
    }

    /**
     * The `while (true)` loop inside `run`'s `try`: frames are received until
     * LOGOUT (`Stop`), the end of the stream (`Continue`), or an unreadable message
     * or a failed download (`Failed`). EOF before any frame shows nothing and
     * leaves every slot alone. A LOGOUT ends the loop: its frame, starting at
     * `logoutAt`, is the last one read. A failure comes from the last frame read,
     * which starts at `failedAt` and is one `run` fails on.
     */
    method ReceiveFrames() returns (status: Status, ghost logoutAt: nat, ghost failedAt: nat)
      requires Valid()
      modifies this`shown, input`pos, client`fileList, client`loginResponse,
        client`metadata, client`downloadedFileData
      ensures Valid()
      ensures status == Continue ==> input.pos == |input.data|
      ensures NextFrame(input.data[old(input.pos)..]).None? ==>
        status == Continue && shown == old(shown) &&
        client.fileList == old(client.fileList) && client.loginResponse == old(client.loginResponse) &&
        client.metadata == old(client.metadata) && client.downloadedFileData == old(client.downloadedFileData)
      ensures LeadsWith(client.codec, input.data, old(input.pos), Logout) ==>
        status == Stop && logoutAt == old(input.pos) && FrameOfKind(client.codec, input.data, old(input.pos), input.pos, Logout) &&
        shown == old(shown) &&
        client.fileList == old(client.fileList) && client.loginResponse == old(client.loginResponse) &&
        client.metadata == old(client.metadata) && client.downloadedFileData == old(client.downloadedFileData)
      ensures status == Stop ==>
        old(input.pos) <= logoutAt && FrameOfKind(client.codec, input.data, logoutAt, input.pos, Logout)
      ensures status == Failed ==>
        old(input.pos) <= failedAt && FrameFails(client.codec, input.data, failedAt, input.pos)
    {
      status := Continue;
      logoutAt := input.pos;
      failedAt := input.pos;
      ghost var first := true;
      while status == Continue
        invariant Valid()
        invariant old(input.pos) <= input.pos
        invariant first ==>
          (status == Continue && input.pos == old(input.pos) && shown == old(shown) &&
           client.fileList == old(client.fileList) && client.loginResponse == old(client.loginResponse) &&
           client.metadata == old(client.metadata) && client.downloadedFileData == old(client.downloadedFileData))
        invariant status == Stop ==>
          old(input.pos) <= logoutAt && FrameOfKind(client.codec, input.data, logoutAt, input.pos, Logout)
        invariant status == Failed ==>
          old(input.pos) <= failedAt && FrameFails(client.codec, input.data, failedAt, input.pos)
        invariant !first ==> NextFrame(input.data[old(input.pos)..]).Some?
        invariant !first && LeadsWith(client.codec, input.data, old(input.pos), Logout) ==>
          (status == Stop && logoutAt == old(input.pos) && FrameOfKind(client.codec, input.data, old(input.pos), input.pos, Logout) &&
           shown == old(shown) &&
           client.fileList == old(client.fileList) && client.loginResponse == old(client.loginResponse) &&
           client.metadata == old(client.metadata) && client.downloadedFileData == old(client.downloadedFileData))
        decreases |input.data| - input.pos
      {
        ghost var start := input.pos;
        var ended;
        ghost var decoded;
        ended, status, decoded := ReceiveFrame();
        if ended {
          break;
        }
        if status == Stop {
          logoutAt := start;
        } else if status == Failed {
          failedAt := start;
        }
        first := false;
      }
    }

    /**
     * `run`: the frame loop, then the `finally` block that closes the stream,
     * whichever way the loop ended.
     */
    method Run() returns (status: Status, ghost logoutAt: nat, ghost failedAt: nat)
      requires Valid()
      modifies this`shown, input`pos, input`closed, client`fileList, client`loginResponse,
        client`metadata, client`downloadedFileData
      ensures Valid() && input.closed
      ensures status == Continue ==> input.pos == |input.data|
      ensures NextFrame(input.data[old(input.pos)..]).None? ==>
        status == Continue && shown == old(shown) &&
        client.fileList == old(client.fileList) && client.loginResponse == old(client.loginResponse) &&
        client.metadata == old(client.metadata) && client.downloadedFileData == old(client.downloadedFileData)
      ensures LeadsWith(client.codec, input.data, old(input.pos), Logout) ==>
        status == Stop && logoutAt == old(input.pos) && FrameOfKind(client.codec, input.data, old(input.pos), input.pos, Logout) &&
        shown == old(shown) &&
        client.fileList == old(client.fileList) && client.loginResponse == old(client.loginResponse) &&
        client.metadata == old(client.metadata) && client.downloadedFileData == old(client.downloadedFileData)
      ensures status == Stop ==>
        old(input.pos) <= logoutAt && FrameOfKind(client.codec, input.data, logoutAt, input.pos, Logout)
      ensures status == Failed ==>
        old(input.pos) <= failedAt && FrameFails(client.codec, input.data, failedAt, input.pos)
    {
      status, logoutAt, failedAt := ReceiveFrames();
      input.Close();
    }
  }
}

=== FILE: server.dfy ===
/**
 * The server's shared state (class Server): the credential table, the registry of
 * live handlers (`clients`, passed to every handler as `allClients`) and the accept
 * loop that fills it. A handler is identified by a connection id; what each
 * connection has been sent so far is its outbox, and the two files directories the
 * handlers consult live here too.
 */
module ServerMain {
  import opened Wrappers
  import opened Shared
  import opened Wire
  import opened FileStore

  datatype User = User(username: string, password: string)

  /** The hard-coded credential table. */
  const Users: seq<User> := [
    User("user1", "1234"),
    User("user2", "1234"),
    User("user3", "1234"),
    User("user4", "1234"),
    User("user5", "1234")
  ]

  /**
   * `authenticate`: a scan of the table that succeeds on the first entry matching
   * both fields; a null name or password matches nothing.
   */
  function Authenticate(users: seq<User>, username: Option<string>, password: Option<string>): (r: bool)
    ensures r <==> exists i :: 0 <= i < |users| &&
                     Some(users[i].username) == username && Some(users[i].password) == password
  {
    if users == [] then false
    else if Some(users[0].username) == username && Some(users[0].password) == password then true
    else Authenticate(users[1..], username, password)
  }

  /** Against the real table: exactly user1..user5 with password "1234" get in. */
  lemma {:induction false} AuthenticateUsers(username: Option<string>, password: Option<string>)
    ensures Authenticate(Users, username, password) <==>
      username.Some? && username.value in {"user1", "user2", "user3", "user4", "user5"} &&
      password == Some("1234")
    ensures Authenticate(Users, Some("user1"), Some("1234"))
  {
    assert Users[0].username == "user1" && Users[1].username == "user2" && Users[2].username == "user3";
    assert Users[3].username == "user4" && Users[4].username == "user5";
    assert forall i :: 0 <= i < |Users| ==> Users[i].password == "1234";
  }

  /** A known user with a wrong password, and an unknown user, are refused. */
  lemma WrongCredentialsRefused(username: string, password: string)
    ensures password != "1234" ==> !Authenticate(Users, Some(username), Some(password))
    ensures username !in {"user1", "user2", "user3", "user4", "user5"} ==>
      !Authenticate(Users, Some(username), Some(password))
  {
    AuthenticateUsers(Some(username), Some(password));
  }

  /** `ArrayList.remove(Object)`: drops the first occurrence, if any. */
  function Remove(s: seq<nat>, x: nat): (r: seq<nat>)
    ensures x !in s ==> r == s
    ensures x in s ==> |r| == |s| - 1
    ensures forall y :: y in r ==> y in s
    ensures forall y :: y in s && y != x ==> y in r
  {
    if s == [] then []
    else if s[0] == x then s[1..]
    else [s[0]] + Remove(s[1..], x)
  }

  /** `remove(Object)` takes away one occurrence of the handler and nothing else. */
  lemma {:induction false} RemoveMultiset(s: seq<nat>, x: nat)
    ensures multiset(Remove(s, x)) == multiset(s) - multiset{x}
  {
    if s != [] {
      assert s == [s[0]] + s[1..];
      if s[0] != x {
        RemoveMultiset(s[1..], x);
      }
    }
  }

  lemma {:induction false} RemoveDistinct(s: seq<nat>, x: nat)
    requires Distinct(s)
    ensures Distinct(Remove(s, x)) && x !in Remove(s, x)
  {
    if s != [] && s[0] != x {
      assert Distinct(s[1..]);
      RemoveDistinct(s[1..], x);
      assert s[0] !in s[1..];
    }
  }

  /** What a connection has been sent so far. */
  function Outbox(o: map<nat, seq<byte>>, c: nat): seq<byte>
  {
    if c in o then o[c] else []
  }

  /** Raw bytes written to connection `to`. */
  function Append(o: map<nat, seq<byte>>, to: nat, bytes: seq<byte>): map<nat, seq<byte>>
  {
    o[to := Outbox(o, to) + bytes]
  }

  lemma AppendTwice(o: map<nat, seq<byte>>, to: nat, a: seq<byte>, b: seq<byte>)
    ensures Append(Append(o, to, a), to, b) == Append(o, to, a + b)
  {
    assert Outbox(o, to) + a + b == Outbox(o, to) + (a + b);
  }

  lemma AppendNothing(o: map<nat, seq<byte>>, to: nat)
    requires to in o
    ensures Append(o, to, []) == o
  {
    assert Outbox(o, to) + [] == o[to];
  }

  /** `sendMessage(text)` on the handler of connection `to`. */
  function Deliver(o: map<nat, seq<byte>>, to: nat, text: string): map<nat, seq<byte>>
  {
    Append(o, to, Frame(text))
  }

  /** A delivery appends the text's bytes and one '\n' to its connection and to no other. */
  lemma DeliverReaches(o: map<nat, seq<byte>>, to: nat, text: string, c: nat)
    ensures Outbox(Deliver(o, to, text), c) ==
      if c == to then Outbox(o, c) + WriteBytes(text) + [Newline] else Outbox(o, c)
  {
  }

  /**
   * One frame to each of `targets` in order, passing over `skip`. A connection
   * that is not a target, or is skipped, gets nothing.
   */
  function Fanout(o: map<nat, seq<byte>>, targets: seq<nat>, skip: Option<nat>, text: string): (r: map<nat, seq<byte>>)
    ensures forall c :: c !in targets || skip == Some(c) ==> Outbox(r, c) == Outbox(o, c)
  {
    if targets == [] then o
    else
      var prior := Fanout(o, targets[..|targets| - 1], skip, text);
      var last := targets[|targets| - 1];
      if skip == Some(last) then prior else Deliver(prior, last, text)
  }

  /** Without repeats, the last element is not among the others, which have no repeats either. */
  lemma DistinctLast(s: seq<nat>, c: nat)
    requires Distinct(s) && s != []
    ensures Distinct(s[..|s| - 1]) && s[|s| - 1] !in s[..|s| - 1]
    ensures c in s <==> c in s[..|s| - 1] || c == s[|s| - 1]
  {
    assert s == s[..|s| - 1] + [s[|s| - 1]];
  }

  /**
   * Over a registry without repeats, a fan-out gives every target except `skip`
   * exactly one more frame and leaves every other connection as it was.
   */
  lemma {:induction false} FanoutReaches(o: map<nat, seq<byte>>, targets: seq<nat>, skip: Option<nat>, text: string, c: nat)
    requires Distinct(targets)
    ensures Outbox(Fanout(o, targets, skip, text), c) ==
      if c in targets && skip != Some(c) then Outbox(o, c) + Frame(text) else Outbox(o, c)
  {
    if targets != [] {
      var prefix := targets[..|targets| - 1];
      var last := targets[|targets| - 1];
      DistinctLast(targets, c);
      var prior := Fanout(o, prefix, skip, text);
      FanoutReaches(o, prefix, skip, text, c);
      if skip != Some(last) {
        assert Fanout(o, targets, skip, text) == Deliver(prior, last, text);
        DeliverReaches(prior, last, text, c);
      } else {
        assert Fanout(o, targets, skip, text) == prior;
      }
    }
  }

  class Server {
    /** Gson, as used by every handler. */
    const codec: Codec
    /** The registry `clients` (a handler's `allClients`). */
    var clients: seq<nat>
    /** The id the next accepted connection gets. */
    var nextId: nat
    /** The bytes written so far to each connection's output stream. */
    var outbox: map<nat, seq<byte>>
    /** src/main/resources/Server/Files. */
    var serverDir: Option<Dir>
    /** The classpath copy Server/Files, which uploads do not change. */
    var resourceDir: Option<Dir>

    ghost predicate Valid()
      reads this
    {
      Distinct(clients) && forall c :: c in clients ==> c < nextId
    }

    constructor (codec: Codec, serverDir: Option<Dir>, resourceDir: Option<Dir>)
      ensures Valid()
      ensures this.codec == codec && clients == [] && nextId == 0 && outbox == map[]
      ensures this.serverDir == serverDir && this.resourceDir == resourceDir
    {
      this.codec := codec;
      clients := [];
      nextId := 0;
      outbox := map[];
      this.serverDir := serverDir;
      this.resourceDir := resourceDir;
    }

    /**
     * `sendMessage(msg)` of the handler of connection `to`: the text's bytes and one
     * '\n' are appended to that connection and no other.
     */
    method SendMessage(to: nat, msg: string)
      modifies this`outbox
      ensures outbox == Deliver(old(outbox), to, msg)
    {
      outbox := outbox[to := Outbox(outbox, to) + WriteBytes(msg + "\n")];
    }

    /** `out.write(bytes)` on connection `to`: raw bytes, no framing. */
    method Write(to: nat, bytes: seq<byte>)
      modifies this`outbox
      ensures outbox == Append(old(outbox), to, bytes)
    {
      outbox := outbox[to := Outbox(outbox, to) + bytes];
    }

    /**
     * The accept loop of `main`: each accepted connection whose handler is created
     * and registered (`setupSucceeds[i]`) is appended to the registry under a fresh
     * id; the first failure closes that socket and ends the loop.
     */
    method AcceptLoop(setupSucceeds: seq<bool>) returns (accepted: seq<nat>, stoppedByError: bool)
      requires Valid()
      modifies this`clients, this`nextId
      ensures Valid()
      ensures clients == old(clients) + accepted
      ensures |accepted| == LeadingSuccesses(setupSucceeds)
      ensures forall i :: 0 <= i < |accepted| ==> accepted[i] == old(nextId) + i
      ensures nextId == old(nextId) + |accepted|
      ensures stoppedByError <==> |accepted| < |setupSucceeds|
    {
      accepted := [];
      stoppedByError := false;
      var i := 0;
      while i < |setupSucceeds|
        invariant 0 <= i <= |setupSucceeds| && i == |accepted|
        invariant Valid()
        invariant clients == old(clients) + accepted
        invariant nextId == old(nextId) + i
        invariant forall k :: 0 <= k < i ==> accepted[k] == old(nextId) + k && setupSucceeds[k]
      {
        if !setupSucceeds[i] {
          stoppedByError := true;
          break;
        }
        assert forall k :: 0 <= k < |clients| ==> clients[k] in clients;
        clients := clients + [nextId];
        accepted := accepted + [nextId];
        nextId := nextId + 1;
        i := i + 1;
      }
      LeadingSuccessesAt(setupSucceeds, i);
    }
  }

  /** How many setups succeed before the first failure. */
  function LeadingSuccesses(s: seq<bool>): nat
  {
    if s == [] || !s[0] then 0 else 1 + LeadingSuccesses(s[1..])
  }

  lemma {:induction false} LeadingSuccessesAt(s: seq<bool>, i: nat)
    requires i <= |s|
    requires forall k :: 0 <= k < i ==> s[k]
    requires i < |s| ==> !s[i]
    ensures LeadingSuccesses(s) == i
  {
    if i > 0 {
      LeadingSuccessesAt(s[1..], i - 1);
    }
  }
}

=== FILE: shared.dfy ===
/**
 * The wire message shared by server and client (package Shared, class Message).
 * Its reference fields may be null in Java; they are Options here.
 */
module Shared {
  import opened Wrappers

  // The "enum simulation": the integer type codes of a message.
  const Login: int := 0
  const Chat: int := 1
  const FileList: int := 2
  const FileUpload: int := 3
  const FileDownload: int := 4
  const LoginResponse: int := 5
  const Logout: int := 6

  /** The seven codes in declaration order. */
  const TypeCodes: seq<int> := [Login, Chat, FileList, FileUpload, FileDownload, LoginResponse, Logout]

  /**
   * A message: `kind` is the Java field `type`, `fileLength` the Java `long`.
   * `kind` is an arbitrary int, since a decoded frame may carry any number.
   */
  datatype Message = Message(kind: int, sender: Option<string>, content: Option<string>, fileLength: int)

  /** How one dispatched message leaves a run loop: go on, stop on LOGOUT, or an exception. */
  datatype Status = Continue | Stop | Failed

  /** Gson as seen by this program: toJson and fromJson (None: an exception or a null result). */
  datatype Codec = Codec(toJson: Message -> string, fromJson: string -> Option<Message>)

  /** The seven type codes are exactly the integers 0..6, so they are pairwise distinct. */
  lemma TypeCodesAreDistinct()
    ensures |TypeCodes| == 7
    ensures forall i :: 0 <= i < |TypeCodes| ==> TypeCodes[i] == i
    ensures forall i, j :: 0 <= i < j < |TypeCodes| ==> TypeCodes[i] != TypeCodes[j]
  {
  }

  /** The no-argument constructor: every field keeps its Java default. */
  function EmptyMessage(): (m: Message)
    ensures m.kind == Login && m.fileLength == 0
    ensures m.sender == None && m.content == None
  {
    Message(0, None, None, 0)
  }

  /** The three-argument constructor: `fileLength` keeps its default 0. */
  function NewMessage(kind: int, sender: Option<string>, content: Option<string>): (m: Message)
    ensures m.kind == kind && m.sender == sender && m.content == content
    ensures m.fileLength == 0
  {
    Message(kind, sender, content, 0)
  }

  /** The four-argument constructor: all four fields come from the arguments. */
  function NewMessageWithLength(kind: int, sender: Option<string>, content: Option<string>, fileLength: int): (m: Message)
    ensures m.kind == kind && m.sender == sender && m.content == content
    ensures m.fileLength == fileLength
    ensures fileLength == 0 ==> m == NewMessage(kind, sender, content)
  {
    Message(kind, sender, content, fileLength)
  }

  /** Java's string conversion of a possibly-null String, as used by `+`. */
  function Text(s: Option<string>): (r: string)
    ensures s.Some? ==> r == s.value
    ensures s.None? ==> r == "null"
  {
    if s.Some? then s.value else "null"
  }

  const TwoTo31: int := 0x8000_0000
  const TwoTo32: int := 0x1_0000_0000

  /** Java's narrowing cast `(int)` of a long: keep the low 32 bits, two's complement. */
  function ToInt32(x: int): (r: int)
    ensures -TwoTo31 <= r < TwoTo31
    ensures (x - r) % TwoTo32 == 0
    ensures -TwoTo31 <= x < TwoTo31 ==> r == x
  {
    var low := x % TwoTo32;
    if low >= TwoTo31 then low - TwoTo32 else low
  }
}

=== FILE: wire.dfy ===
/**
 * Bytes on a connection: the newline framing that sendMessage writes and the run
 * loops read back, and the DataInputStream reads that both sides use, with a
 * stream modelled as the finite sequence of bytes the peer sends before EOF.
 */
module Wire {
  import opened Wrappers
  import opened Shared

  newtype byte = x: int | 0 <= x < 256

  /** The frame delimiter '\n' as a byte. */
  const Newline: byte := 10

  /** The smaller of two counts. */
  function Min(a: int, b: int): (r: int)
    ensures r <= a && r <= b && (r == a || r == b)
  {
    if a <= b then a else b
  }

  /** DataOutputStream.writeBytes keeps only the low eight bits of a char. */
  function LowByte(c: char): byte
  {
    ((c as int) % 256) as byte
  }

  /** The bytes writeBytes emits for a string: one byte per char, in order. */
  function WriteBytes(s: string): (r: seq<byte>)
    ensures |r| == |s|
  {
    if s == [] then [] else [LowByte(s[0])] + WriteBytes(s[1..])
  }

  /** `writeBytes` keeps the low eight bits of each char, one byte per char. */
  lemma {:induction false} WriteBytesAt(s: string, i: nat)
    requires i < |s|
    ensures WriteBytes(s)[i] == LowByte(s[i])
  {
    if i > 0 {
      WriteBytesAt(s[1..], i - 1);
    }
  }

  /** Writing two strings in a row writes the bytes of each, in order. */
  lemma {:induction false} WriteBytesAppend(a: string, b: string)
    ensures WriteBytes(a + b) == WriteBytes(a) + WriteBytes(b)
  {
    if a != [] {
      assert (a + b)[1..] == a[1..] + b;
      WriteBytesAppend(a[1..], b);
    } else {
      assert a + b == b;
    }
  }

  /** The bytes `sendMessage(msg)` writes: the text and then a single '\n'. */
  function Frame(s: string): (r: seq<byte>)
    ensures r == WriteBytes(s) + [Newline]
    ensures |r| == |s| + 1 && r[|s|] == Newline
  {
    WriteBytesAppend(s, "\n");
    WriteBytes(s + "\n")
  }

  /** The reader's cast `(char) byteRead`. */
  function CharOf(b: byte): char
  {
    (b as int) as char
  }

  /** The reader's chars for a run of bytes. */
  function Chars(bs: seq<byte>): (r: string)
    ensures |r| == |bs| && forall i :: 0 <= i < |bs| ==> r[i] == CharOf(bs[i])
  {
    seq(|bs|, i requires 0 <= i < |bs| => CharOf(bs[i]))
  }

  /** A line that survives writeBytes: no '\n' and every char below 256. */
  predicate Latin1Line(s: string)
  {
    forall i :: 0 <= i < |s| ==> s[i] != '\n' && s[i] as int < 256
  }

  function Prefixed(prefix: string, count: nat, r: Option<(string, nat)>): Option<(string, nat)>
  {
    match r
    case None => None
    case Some((t, k)) => Some((prefix + t, count + k))
  }

  /**
   * What the frame reader makes of the bytes it has not read yet: the chars before
   * the first '\n' and the number of bytes consumed, the '\n' included; None when
   * EOF comes first.
   */
  function NextFrame(bs: seq<byte>): (r: Option<(string, nat)>)
    ensures r.Some? ==> r.value.1 == |r.value.0| + 1 <= |bs| && bs[r.value.1 - 1] == Newline
    ensures r.Some? ==> forall i :: 0 <= i < |r.value.0| ==> bs[i] != Newline && r.value.0[i] == CharOf(bs[i])
    ensures r.None? <==> Newline !in bs
  {
    if |bs| == 0 then None
    else if bs[0] == Newline then Some(("", 1))
    else Prefixed([CharOf(bs[0])], 1, NextFrame(bs[1..]))
  }

  /** A whole frame starts at `start`, and the codec decodes its text to a message of type `kind`. */
  ghost predicate LeadsWith(codec: Codec, data: seq<byte>, start: nat, kind: int)
  {
    start <= |data| &&
    var f := NextFrame(data[start..]);
    f.Some? && codec.fromJson(f.value.0).Some? && codec.fromJson(f.value.0).value.kind == kind
  }

  /**
   * The bytes `data[start..end]` are exactly one frame, and the codec decodes its
   * text to a message of type `kind`.
   */
  ghost predicate FrameOfKind(codec: Codec, data: seq<byte>, start: nat, end: nat, kind: int)
  {
    LeadsWith(codec, data, start, kind) && end == start + NextFrame(data[start..]).value.1
  }

  /** The frame ends at the first '\n': the chars before it, and one byte more consumed. */
  lemma {:induction false} NextFrameAt(bs: seq<byte>, j: nat)
    requires j < |bs| && bs[j] == Newline
    requires forall i :: 0 <= i < j ==> bs[i] != Newline
    ensures NextFrame(bs) == Some((Chars(bs[..j]), j + 1))
  {
    if j > 0 {
      NextFrameAt(bs[1..], j - 1);
      assert [CharOf(bs[0])] + Chars(bs[1..][..j - 1]) == Chars(bs[..j]);
    }
  }

  /**
   * Frame round trip: reading back what sendMessage wrote gives the text and
   * consumes exactly its frame, whatever follows it on the stream.
   */
  lemma {:induction false} FrameRoundTrip(s: string, rest: seq<byte>)
    requires Latin1Line(s)
    ensures NextFrame(Frame(s) + rest) == Some((s, |s| + 1))
  {
    var bs := Frame(s) + rest;
    if s == [] {
      assert bs[0] == Newline;
    } else {
      var b := LowByte(s[0]);
      assert s + "\n" == [s[0]] + (s[1..] + "\n");
      assert Frame(s) == [b] + Frame(s[1..]);
      assert bs == [b] + (Frame(s[1..]) + rest);
      assert b as int == s[0] as int;
      assert Latin1Line(s[1..]);
      FrameRoundTrip(s[1..], rest);
      assert [CharOf(b)] + s[1..] == s;
    }
  }

  /**
   * The limit of the round trip: a char whose low byte is 10 (here U+010A) is
   * written as a '\n' byte, so the reader ends the frame at it.
   */
  lemma WideCharSplitsFrame()
    ensures NextFrame(Frame("aĊb")) == Some(("a", 2))
  {
    var bs := Frame("aĊb");
    assert bs[0] == 97 && bs[1] == Newline;
    NextFrameAt(bs, 1);
    assert Chars(bs[..1]) == "a";
  }

  /** A socket's or a file's input: `data` is every byte before EOF, `pos` the cursor. */
  class InputStream {
    const data: seq<byte>
    var pos: nat
    var closed: bool

    ghost predicate Valid()
      reads this
    {
      pos <= |data|
    }

    constructor (data: seq<byte>)
      ensures Valid() && this.data == data && pos == 0 && !closed
    {
      this.data := data;
      pos := 0;
      closed := false;
    }

    /** `read()`: the next byte, or -1 at EOF. */
    method ReadByte() returns (b: int)
      requires Valid()
      modifies this`pos
      ensures Valid()
      ensures old(pos) < |data| ==> b == data[old(pos)] as int && pos == old(pos) + 1
      ensures old(pos) == |data| ==> b == -1 && pos == old(pos)
    {
      if pos < |data| {
        b := data[pos] as int;
        pos := pos + 1;
      } else {
        b := -1;
      }
    }

    /**
     * `read(buf, off, len)`: a partial read. It stores some count n in 1..len of the
     * next bytes at buf[off..] (which count is the stream's choice), or returns -1
     * at EOF; a request for zero bytes returns 0.
     */
    method Read(buf: array<byte>, off: nat, len: nat) returns (n: int)
      requires Valid() && off + len <= buf.Length
      modifies this`pos, buf
      ensures Valid()
      ensures len == 0 ==> n == 0 && pos == old(pos) && buf[..] == old(buf[..])
      ensures len > 0 && old(pos) == |data| ==> n == -1 && pos == old(pos) && buf[..] == old(buf[..])
      ensures len > 0 && old(pos) < |data| ==>
        1 <= n <= len && pos == old(pos) + n &&
        buf[..] == old(buf[..off]) + data[old(pos)..pos] + old(buf[off + n..])
    {
      if len == 0 {
        n := 0;
        return;
      }
      if pos == |data| {
        n := -1;
        return;
      }
      var count :| 1 <= count <= len && count <= |data| - pos;
      forall k | off <= k < off + count {
        buf[k] := data[pos + k - off];
      }
      n := count;
      pos := pos + count;
    }

    /**
     * The frame reader of both run loops: appends bytes, cast to chars, until a '\n'
     * (consumed, not kept) or EOF (None: the caller's loop stops).
     */
    method ReadFrame() returns (line: Option<string>)
      requires Valid()
      modifies this`pos
      ensures Valid()
      ensures NextFrame(data[old(pos)..]).None? ==> line == None && pos == |data|
      ensures NextFrame(data[old(pos)..]).Some? ==>
        line == Some(NextFrame(data[old(pos)..]).value.0) &&
        pos == old(pos) + NextFrame(data[old(pos)..]).value.1
    {
      var builder: string := "";
      var byteRead := -1;
      while true
        invariant Valid() && old(pos) <= pos
        invariant builder == Chars(data[old(pos)..pos])
        invariant Newline !in data[old(pos)..pos]
        decreases |data| - pos
      {
        byteRead := ReadByte();
        if byteRead == -1 {
          break;
        }
        var c := CharOf(byteRead as byte);
        if c == '\n' {
          break;
        }
        builder := builder + [c];
      }
      ghost var rest := data[old(pos)..];
      if byteRead == -1 {
        assert rest == data[old(pos)..pos];
        line := None;
      } else {
        assert rest[pos - 1 - old(pos)] == Newline;
        assert rest[..pos - 1 - old(pos)] == data[old(pos)..pos - 1];
        NextFrameAt(rest, pos - 1 - old(pos));
        line := Some(builder);
      }
    }

    /**
     * The payload reader of receiveFile and receiveFileData: loops over partial
     * reads into a fresh `byte[length]` until `length` bytes or EOF.
     */
    method ReadPayload(length: nat) returns (buffer: array<byte>, total: nat)
      requires Valid()
      modifies this`pos
      ensures Valid() && fresh(buffer) && buffer.Length == length
      ensures total == Min(length, |data| - old(pos))
      ensures pos == old(pos) + total
      ensures buffer[..total] == data[old(pos)..pos]
    {
      buffer := new byte[length];
      total := 0;
      while total < length
        invariant Valid() && total <= length && pos == old(pos) + total
        invariant buffer[..total] == data[old(pos)..pos]
        decreases length - total
      {
        var bytesRead := Read(buffer, total, length - total);
        if bytesRead == -1 {
          break;
        }
        total := total + bytesRead;
      }
    }

    /** `close()`. */
    method Close()
      modifies this`closed
      ensures closed
    {
      closed := true;
    }
  }
}

=== FILE: wrappers.dfy ===
/**
 * Option values, the model's stand-in for a Java reference that may be null, and
 * the "no element twice" property of a list.
 */
module Wrappers {

  datatype Option<+T> = None | Some(value: T)

  predicate Distinct<T(==)>(s: seq<T>)
  {
    forall i, j :: 0 <= i < j < |s| ==> s[i] != s[j]
  }

}
